=== FILE: README.md ===
# Personal-data log redaction

A Dafny model of the redaction core of the personal-data logger. It covers
`filter_datum`, the `RedactingFormatter` that runs `filter_datum` over every
line it formats, and the message that `main` builds for each row of the
`users` table.

- `redactor.dfy` (`Redactor`) models `filter_datum`.
  - One `re.sub` call uses the pattern `field=[^separator]*` and the replacement `field=redaction`. It is modelled as the left-to-right scan `SubOne`.
  - At each index the scan checks whether the text there starts with `field=`. If it does, it writes `field=redaction` and skips the key and the longest run of non-separator characters after it (`ValueLen`). Otherwise it copies one character.
  - The scan gives the regular expression's leftmost, non-overlapping, greedy matches. It does so because every match starts with the literal key `field=`, so no match is empty.
  - `FilterDatum` is the left fold of this pass over the field list.
  - Idempotence: a key occurrence is *settled* when `redaction` follows it and then the end of the text or a separator character (`Settled`). A pass settles its own field and keeps every other clean field settled, and a pass over settled text changes nothing. So, for fields and redaction free of `=` and separator characters and `=` not a separator, `filter_datum` run on its own output returns it unchanged, whatever the message (`FilterDatumIdempotent`).
  - `Substitute` and `FilterDatumLoop` are loop versions of the pass and of the routine, and they are proved equal to the functions.
- `records.dfy` (`Records`) gives a closed form for messages laid out as `name=value` entries, each ended by a separator character.
  - The closed form needs these hypotheses (`Records.Parsable` and the requires of `Records.FilterDatumRender`):
    - no name holds `=` or a separator character;
    - no value holds `=`;
    - a value that some field selects holds no separator character;
    - fields and redaction hold neither `=` nor a separator character;
    - `=` is not a separator character.
  - Under these hypotheses the sequence of passes redacts exactly those entries whose name ends with some field (`RedactAll`).
  - Without them the closed form can fail. For example, the field `name` turns `note=name=x;` into `note=name=***;`, although it does not select `note` (`Scenarios.NestedKeyExample`).
  - The match is unanchored, so the field `name` also redacts `username=`.
- `formatter.dfy` (`Formatter`) models the class constants `REDACTION = "***"` and `SEPARATOR = ";"` and the template `[HOLBERTON] %(name)s %(levelname)s %(asctime)-15s: %(message)s`.
  - `Format` renders the record through the template, then runs `FilterDatum` over the whole line.
- `user_rows.dfy` (`UserRows`) models the eight-column message built in `main` and what the application's formatter leaves of it.
- `scenarios.dfy` (`Scenarios`) works concrete messages through the model.

The regular expression is built from the field and the separator without escaping. The model therefore states its reading of them as preconditions:

- `PlainField`: field names hold no regex metacharacters.
- `PlainSeparator`: the separator is non-empty, and its characters hold none of `]`, `\`, `^`, `-`.
- `PlainRedaction`: the redaction holds no backslash.

`LiteralArgs` asks for all three only when the field list is non-empty. With no fields no pattern is ever built, so redaction and separator are then unconstrained. Inside these preconditions the pattern is literal matching. Every separator character is a one-character alternative of the negated class.

Matching is unanchored: `name=` is found inside `username=`, so the field `name` also redacts `username` (`Redactor.SubOneUnanchored`, `Records.Selects`).

## Model

| member | source | states |
|---|---|---|
| Redactor.ValueLen | 0x00-personal_data/filtered_logger.py:33 | the run `[^separator]*` captures has no separator character in it, and it ends at the first separator character or at the end of the text |
| Redactor.ScanValue | 0x00-personal_data/filtered_logger.py:33 | scanning from the value's start stops at the first separator character or at the end, and the distance scanned is `ValueLen` |
| Redactor.Substitute | 0x00-personal_data/filtered_logger.py:32-36 | the index-walking loop (copy a character, or write `field=redaction` and jump past the value) computes exactly the single-field pass |
| Redactor.FilterDatumLoop | 0x00-personal_data/filtered_logger.py:31-37 | the `for field in fields` loop that reassigns `message` computes the left fold of passes |
| Redactor.ValueLenUnique | 0x00-personal_data/filtered_logger.py:33 | any length with both defining properties of the captured run is that run's length |
| Redactor.ScanMatchStep | 0x00-personal_data/filtered_logger.py:32-36 | at a match the pass writes the replacement and resumes at the end of the value |
| Redactor.ScanCopyStep | 0x00-personal_data/filtered_logger.py:32-36 | where no key starts, the pass copies that character and moves on by one |
| Redactor.SubOneInertPrefix | 0x00-personal_data/filtered_logger.py:32-36 | a prefix in which no key starts comes out unchanged, and the rest is redacted as though the prefix were absent |
| Redactor.SubOneAbsent | 0x00-personal_data/filtered_logger.py:32-36 | when `field=` occurs nowhere in the message, the pass returns the message unchanged |
| Redactor.SubOneLeftmost | 0x00-personal_data/filtered_logger.py:32-36 | the leftmost match decides: the text before it is kept, the key and value become `field=redaction`, and the scan resumes after the value |
| Redactor.SubOneBoundary | 0x00-personal_data/filtered_logger.py:33-34 | on `field=` + a separator-free value + text that is empty or starts with a separator, only the value changes, and the separator and the rest are kept |
| Redactor.SubOneRedactionAppears | 0x00-personal_data/filtered_logger.py:32-36 | whenever the key occurs in the input, `field=redaction` occurs in the output |
| Redactor.SubOnePrefixKept | 0x00-personal_data/filtered_logger.py:32-36 | the pass never changes the first `len(field)+1` characters, and a message shorter than the key is returned unchanged |
| Redactor.SubOneHeadKept | 0x00-personal_data/filtered_logger.py:32-36 | the first character of a non-empty message survives the pass |
| Redactor.SubOneNoNewMatchAtHead | 0x00-personal_data/filtered_logger.py:32-36 | a pass does not create a key at the start of a message that had none there |
| Redactor.SubOneIdempotent | 0x00-personal_data/filtered_logger.py:32-36 | a second pass of the same field changes nothing, provided the redaction holds no separator character |
| Redactor.IdempotentMatchStep | 0x00-personal_data/filtered_logger.py:32-36 | idempotence carries over a match: the written `field=redaction` is matched again and rewritten to itself |
| Redactor.IdempotentCopyStep | 0x00-personal_data/filtered_logger.py:32-36 | idempotence carries over a copied character |
| Redactor.FilterDatumEmpty | 0x00-personal_data/filtered_logger.py:31-37 | with no fields the loop runs zero times and the message is returned unchanged, whatever the redaction and separator |
| Redactor.FilterDatumStep | 0x00-personal_data/filtered_logger.py:31-36 | the first field is applied first, and the remaining fields run over its result |
| Redactor.FilterDatumAppend | 0x00-personal_data/filtered_logger.py:31-36 | running the concatenation of two field lists is running the second list over the first list's output |
| Redactor.FilterDatumAbsent | 0x00-personal_data/filtered_logger.py:31-37 | fields whose keys occur nowhere are ignored silently, and the message is unchanged |
| Redactor.FilterDatumShielded | 0x00-personal_data/filtered_logger.py:31-37 | a prefix with no `=` whose last character is in no field name is never altered by any pass |
| Redactor.FilterDatumSingle | 0x00-personal_data/filtered_logger.py:31-37 | a one-field list is exactly one pass |
| Redactor.PasswordExample | 0x00-personal_data/filtered_logger.py:33-34 | `["password"]` over `password=abc` gives `password=***`, so the value runs to the end of the string |
| Redactor.SubOneUnanchored | 0x00-personal_data/filtered_logger.py:33 | a key preceded by a prefix that shields it (no `=` in the prefix, and its last character in no field name) is still matched, and its value up to the next separator is replaced |
| Redactor.UsernameExample | 0x00-personal_data/filtered_logger.py:33 | `["name"]` over `username=bob;` gives `username=***;` |
| Records.RedactAll | 0x00-personal_data/filtered_logger.py:31-36 | after the per-field passes over entries, an entry holds the redaction exactly when some field selects its name, and is unchanged otherwise |
| Records.ValueThenTerminator | 0x00-personal_data/filtered_logger.py:33 | for a field free of `=` and separator characters and `=` not a separator, a value with no `=`, followed by a separator character, is copied by the pass, even when the value itself holds separator characters |
| Records.SubOneEntry | 0x00-personal_data/filtered_logger.py:32-36 | for a field and name free of `=` and separator characters, a value free of `=`, and `=` not a separator, one pass over `name=value;` replaces the value iff the name ends with the field, keeps the name and separator, and goes on after the separator; a value the field does not select may hold separator characters, a selected one may not |
| Records.SubOneRender | 0x00-personal_data/filtered_logger.py:32-36 | for a field free of `=` and separator characters and entries meeting `Parsable`, one pass over the rendered list is the rendering of the list with each selected entry redacted |
| Records.FilterDatumRender | 0x00-personal_data/filtered_logger.py:31-37 | for fields and redaction free of `=` and separator characters, `=` not a separator, and entries meeting `Parsable` (names free of `=` and separators, values free of `=`, selected values free of separators), `filter_datum` over the rendered entries is the rendering of `RedactAll`: a value is redacted iff some field selects its entry |
| Records.FilterDatumRenderIdempotent | 0x00-personal_data/filtered_logger.py:31-37 | on rendered entry messages, running `filter_datum` twice equals running it once |
| Redactor.SubOneSettles | 0x00-personal_data/filtered_logger.py:33-34 | for clean field, redaction and other field and `=` not a separator, after one pass every key of the pass's own field is followed by the redaction and then a boundary, and the other field's keys stay that way if they were |
| Redactor.SettledFixed | 0x00-personal_data/filtered_logger.py:32-36 | a pass over text in which every key of its field is already followed by the redaction and a boundary returns the text unchanged |
| Redactor.FilterDatumSettles | 0x00-personal_data/filtered_logger.py:31-36 | after the whole loop, every field of the list (and every field settled before it) has each key followed by the redaction and a boundary |
| Redactor.FilterDatumIdempotent | 0x00-personal_data/filtered_logger.py:31-37 | for fields and redaction free of `=` and separator characters and `=` not a separator, running `filter_datum` on its own output returns it unchanged, for every message |
| Formatter.PadRight | 0x00-personal_data/filtered_logger.py:44 | `%-15s` left-justifies: the text is kept as a prefix, followed only by spaces up to width 15, and is never truncated |
| Formatter.ConstantsPlain | 0x00-personal_data/filtered_logger.py:43-45 | `***`, `;` and the application's five field names are read literally by the pattern |
| Formatter.FormatNoFields | 0x00-personal_data/filtered_logger.py:56-70 | a formatter with no fields returns the rendered template line unchanged |
| Formatter.FormatRedactsMessageOnly | 0x00-personal_data/filtered_logger.py:56-70 | redaction runs over the whole line, but if logger name, level and time hold no `=` and no field name holds a space, only the message part changes |
| Formatter.HeaderShows | 0x00-personal_data/filtered_logger.py:44 | the rendered line, before redaction, shows the logger name and the level name verbatim; `FormatScenario` carries this to the formatted line under `FormatRedactsMessageOnly`'s hypotheses |
| Formatter.PiiFieldsClean | 0x00-personal_data/filtered_logger.py:73 | the five application fields hold no `=`, `;` or space and are read literally |
| Formatter.ScenarioMessage | 0x00-personal_data/filtered_logger.py:73 | the application's fields turn `ssn=<a>;name=<b>;` into `ssn=***;name=***;` for any values without `=` or `;` |
| Formatter.FormatScenario | 0x00-personal_data/filtered_logger.py:56-70 | a `user_data`/`INFO` record with that message formats to the header followed by `ssn=***;name=***;`, and the line contains `user_data`, `INFO`, `ssn=***` and `name=***` |
| UserRows.RowMessageEntries | 0x00-personal_data/filtered_logger.py:117-121 | the row message `name=..; email=..; …; user_agent=..;` is the eight entries rendered with `;`, with the space after each `;` belonging to the next name |
| UserRows.PersonalSelected | 0x00-personal_data/filtered_logger.py:73 | the application's fields select the name, email, phone, ssn and password columns of the row message |
| UserRows.OthersNotSelected | 0x00-personal_data/filtered_logger.py:73 | no application field selects `ip`, `last_login` or `user_agent` |
| UserRows.RowRedactAll | 0x00-personal_data/filtered_logger.py:73 | the application's fields redact exactly the five personal columns of a row |
| UserRows.FilterRowMessage | 0x00-personal_data/filtered_logger.py:117-121 | `filter_datum` with the application's fields turns a row's message into the message of the row whose first five columns are `***`; `ip`, `last_login` and `user_agent` may hold `;` |
| UserRows.LoggedRow | 0x00-personal_data/filtered_logger.py:117-122 | for a row with no `=` in any column and no `;` in the five personal columns, and a time string without `=`, the line logged is the header followed by the redacted row message, and `ip`, `last_login` and `user_agent` stay readable, `;` included |
| Scenarios.ThreeFilter | 0x00-personal_data/filtered_logger.py:31-37 | fields that select `name` and `email` but not `phone` redact the first two entries of a three-entry message and keep the third, for fields, redaction and values free of `=` and `;` |
| Scenarios.NameEmailPhone | 0x00-personal_data/filtered_logger.py:15-37 | `["name","email"]` turns `name=<n>;email=<e>;phone=<p>;` into `name=***;email=***;phone=<p>;` for values free of `=` and `;` |
| Scenarios.NameEmailExample | 0x00-personal_data/filtered_logger.py:15-37 | `["name","email"]` over `name=John;email=john@x.com;phone=555;` gives `name=***;email=***;phone=555;` |
| Scenarios.NestedKeyExample | 0x00-personal_data/filtered_logger.py:33-34 | an entry that no field selects still changes when its value holds another entry's key: `["name"]` turns `note=name=x;` into `note=name=***;`, so the closed form needs `=`-free values |
| Scenarios.JaneScenario | 0x00-personal_data/filtered_logger.py:56-70 | the `user_data`/`INFO` record with message `ssn=123-45-6789;name=Jane;` formats to a line containing `ssn=***`, `name=***`, `INFO` and `user_data` |

## Left out

- `get_logger` (lines 76–92) is left out. It uses the process-wide logger registry, handler attachment and stream output. The scenarios take its logger name `user_data` and level `INFO` as inputs.
- `get_db` (lines 95–106) is left out. It reads environment variables and opens a MySQL connection.
- `main`'s query, cursor loop, `logger.info` call and closing of the connection are left out because they are I/O. Only the message text of lines 117–121 is modelled. Each column arrives as the string that interpolation produces for it.
- The clock is not modelled: `asctime` is an input string. `logging.Formatter` details beyond the template are not modelled either, such as appended exception or stack text.
- Regex metacharacter semantics are not modelled. The `Plain*` preconditions restrict fields, separator and redaction to the literal fragment. Patterns whose field or separator holds metacharacters, and backslash escapes in the replacement, are outside the model.
- A single-alternation redaction strategy is not modelled. The code applies the fields strictly one after another.
- Redactor.LiteralArgs: an empty separator with a non-empty field list is outside the model. The source then builds the class `[^]`, which does not compile, so `re.sub` raises `re.error`. The model requires a non-empty separator instead of modelling the exception.
- Formatter.RedactingFormatter: `__init__` (line 54) keeps a reference to the caller's list, so mutating `PII_FIELDS` after construction changes what later `format` calls redact. The datatype holds an immutable copy of the list taken at construction.
- Records.FilterDatumRenderIdempotent: states idempotence only for rendered entry messages meeting `Parsable`; `Redactor.FilterDatumIdempotent` proves it for every message under the same conditions on fields, redaction and separator. Outside those conditions (a field holding a separator character or `=`, a redaction holding either, or `=` used as a separator) idempotence of the whole routine is not claimed.
- UserRows.FilterRowMessage: no column value may hold `=`, and the five personal columns may not hold `;`. A personal value with a `;` ends the match early, and the text after it is left readable. A value with a `field=` inside it is redacted from there on. The model reproduces both behaviours, but the closed form covers only rows without them. `ip`, `last_login` and `user_agent` may hold `;`.
- UserRows.LoggedRow: proved only for rows with no `=` in any column and no `;` in the five personal columns, and for a time string without `=`. The column restriction has the same reason as for `FilterRowMessage`. An `=` in the time string would let a field's key match inside the header.
- Formatter.FormatScenario: proved for any `ssn` and `name` values without `=` or `;` and any time string without `=`. `Scenarios.JaneScenario` instantiates it with the concrete values.

=== FILE: formatter.dfy ===
/** The `RedactingFormatter` of the personal-data logger: it renders a log
    record through a fixed template and then runs `filter_datum` over the
    whole rendered line with its configured fields, the redaction `***`
    and the separator `;`.

  The clock is not modelled: the record's `asctime` arrives as an already
  formatted string, and the record carries no exception or stack text.
*/
module Formatter {
  import opened Redactor
  import Records

  /** The class constant `REDACTION`. */
  const REDACTION: string := "***"

  /** The class constant `SEPARATOR`. */
  const SEPARATOR: string := ";"

  /** Minimum width of the `%(asctime)-15s` slot of the template. */
  const ASCTIME_WIDTH: nat := 15

  /** The fields the application's logger is configured with. */
  const PII_FIELDS: seq<string> := ["name", "email", "phone", "ssn", "password"]

  /** The attributes of a log record that the template reads. */
  datatype LogRecord = LogRecord(name: string, levelname: string, asctime: string, message: string)

  /** A formatter holds the field list it was constructed with. */
  datatype RedactingFormatter = RedactingFormatter(fields: seq<string>)

  /** `%-Ns`: `s` left-justified in a field of at least `width` characters,
      padded with spaces on the right; never truncated. */
  function PadRight(s: string, width: nat): (r: string)
    ensures |r| == if |s| >= width then |s| else width
    ensures r[..|s|] == s
    ensures forall k :: |s| <= k < |r| ==> r[k] == ' '
    decreases width - |s|
  {
    if |s| >= width then s else PadRight(s + " ", width)
  }

  /** The template up to the message slot:
      `[HOLBERTON] %(name)s %(levelname)s %(asctime)-15s: `. */
  function Header(rec: LogRecord): string {
    "[HOLBERTON] " + rec.name + " " + rec.levelname + " " + PadRight(rec.asctime, ASCTIME_WIDTH) + ": "
  }

  /** The record rendered through the whole template, before redaction. */
  function FormatMessage(rec: LogRecord): string {
    Header(rec) + rec.message
  }

  /** `RedactingFormatter.format`: redact the entire rendered line. */
  function Format(fmt: RedactingFormatter, rec: LogRecord): string
    requires LiteralArgs(fmt.fields, REDACTION, SEPARATOR)
  {
    FilterDatum(fmt.fields, REDACTION, FormatMessage(rec), SEPARATOR)
  }

  /** The formatter's constants are read literally by the pattern. */
  lemma ConstantsPlain()
    ensures PlainRedaction(REDACTION) && PlainSeparator(SEPARATOR)
    ensures LiteralArgs(PII_FIELDS, REDACTION, SEPARATOR)
  {
    assert PlainField("name") && PlainField("email") && PlainField("phone");
    assert PlainField("ssn") && PlainField("password");
  }

  /** With no fields configured the formatter returns the rendered line. */
  lemma FormatNoFields(rec: LogRecord)
    ensures LiteralArgs([], REDACTION, SEPARATOR)
    ensures Format(RedactingFormatter([]), rec) == FormatMessage(rec)
  {
    ConstantsPlain();
  }

  /** Padding adds only spaces. */
  lemma PadRightChars(s: string, width: nat, c: char)
    requires c != ' ' && c !in s
    ensures c !in PadRight(s, width)
  {
    var r := PadRight(s, width);
    forall k | 0 <= k < |r| ensures r[k] != c {
      if k < |s| {
        assert r[k] == r[..|s|][k] == s[k];
      }
    }
  }

  /** Although the whole line is redacted, only the message part can
      change, provided the logger name, level and timestamp hold no `=`
      and no field name contains a space: no key can start in the header. */
  lemma FormatRedactsMessageOnly(fmt: RedactingFormatter, rec: LogRecord)
    requires LiteralArgs(fmt.fields, REDACTION, SEPARATOR)
    requires '=' !in rec.name && '=' !in rec.levelname && '=' !in rec.asctime
    requires forall i :: 0 <= i < |fmt.fields| ==> ' ' !in fmt.fields[i]
    ensures Format(fmt, rec) == Header(rec) + FilterDatum(fmt.fields, REDACTION, rec.message, SEPARATOR)
  {
    var h := Header(rec);
    PadRightChars(rec.asctime, ASCTIME_WIDTH, '=');
    assert '=' !in h;
    assert h[|h| - 1] == ' ';
    FilterDatumShielded(fmt.fields, REDACTION, h, rec.message, SEPARATOR);
  }

  /** The application's fields hold no `=`, no `;` and no space. */
  lemma PiiFieldsClean()
    ensures LiteralArgs(PII_FIELDS, REDACTION, SEPARATOR)
    ensures forall j :: 0 <= j < |PII_FIELDS| ==> Clean(PII_FIELDS[j], SEPARATOR)
    ensures forall j :: 0 <= j < |PII_FIELDS| ==> ' ' !in PII_FIELDS[j]
    ensures Clean(REDACTION, SEPARATOR) && ';' in SEPARATOR && '=' !in SEPARATOR
  {
    ConstantsPlain();
  }

  /** A message `ssn=<ssn>;name=<name>;` under the application's field
      list: both values are replaced, whatever they were, provided they
      hold no `=` or `;`. */
  lemma ScenarioMessage(ssn: string, name: string)
    requires Clean(ssn, SEPARATOR) && Clean(name, SEPARATOR)
    ensures LiteralArgs(PII_FIELDS, REDACTION, SEPARATOR)
    ensures FilterDatum(PII_FIELDS, REDACTION, "ssn=" + ssn + ";name=" + name + ";", SEPARATOR)
            == "ssn=***;name=***;"
  {
    PiiFieldsClean();
    ScenarioRender(ssn, name);
    ScenarioFilter(ssn, name);
    RedactedRender();
  }

  /** The two redacted entries, rendered. */
  lemma RedactedRender()
    ensures Records.Render([Records.Entry("ssn", "***"), Records.Entry("name", "***")], ';')
            == "ssn=***;name=***;"
  {
    ScenarioRender("***", "***");
  }

  /** The scenario message is two entries rendered with `;` after each. */
  lemma ScenarioRender(ssn: string, name: string)
    ensures Records.Render([Records.Entry("ssn", ssn), Records.Entry("name", name)], ';')
            == "ssn=" + ssn + ";name=" + name + ";"
  {
    Records.RenderPair(Records.Entry("ssn", ssn), Records.Entry("name", name), ';');
  }

  /** The application's fields redact both entries of the scenario. */
  lemma ScenarioFilter(ssn: string, name: string)
    requires Clean(ssn, SEPARATOR) && Clean(name, SEPARATOR)
    ensures LiteralArgs(PII_FIELDS, REDACTION, SEPARATOR)
    ensures var entries := [Records.Entry("ssn", ssn), Records.Entry("name", name)];
            FilterDatum(PII_FIELDS, REDACTION, Records.Render(entries, ';'), SEPARATOR)
            == Records.Render([Records.Entry("ssn", "***"), Records.Entry("name", "***")], ';')
  {
    var entries := [Records.Entry("ssn", ssn), Records.Entry("name", name)];
    assert Records.WellFormed(entries, SEPARATOR);
    Records.WellFormedParsable(PII_FIELDS, entries, SEPARATOR);
    PiiFieldsClean();
    Records.FilterDatumRender(PII_FIELDS, REDACTION, entries, ';', SEPARATOR);
    ScenarioEntries(ssn, name);
  }

  /** Both entries of the scenario message are selected. */
  lemma ScenarioEntries(ssn: string, name: string)
    ensures Records.RedactAll(PII_FIELDS, REDACTION, [Records.Entry("ssn", ssn), Records.Entry("name", name)])
            == [Records.Entry("ssn", "***"), Records.Entry("name", "***")]
  {
    var entries := [Records.Entry("ssn", ssn), Records.Entry("name", name)];
    assert Records.Selects(PII_FIELDS[3], "ssn");
    assert Records.Selects(PII_FIELDS[0], "name");
    var out := Records.RedactAll(PII_FIELDS, REDACTION, entries);
    assert out[0] == Records.Entry("ssn", "***");
    assert out[1] == Records.Entry("name", "***");
  }

  /** A record from logger `user_data` at level `INFO` whose message is
      `ssn=<ssn>;name=<name>;`: the line keeps the logger name and the
      level verbatim, and both values are redacted. */
  lemma FormatScenario(asctime: string, ssn: string, name: string)
    requires '=' !in asctime
    requires Clean(ssn, SEPARATOR) && Clean(name, SEPARATOR)
    ensures LiteralArgs(PII_FIELDS, REDACTION, SEPARATOR)
    ensures var rec := LogRecord("user_data", "INFO", asctime, "ssn=" + ssn + ";name=" + name + ";");
            var line := Format(RedactingFormatter(PII_FIELDS), rec);
            && line == Header(rec) + "ssn=***;name=***;"
            && Occurs(line, "user_data") && Occurs(line, "INFO")
            && Occurs(line, "ssn=***") && Occurs(line, "name=***")
  {
    PiiFieldsClean();
    var rec := LogRecord("user_data", "INFO", asctime, "ssn=" + ssn + ";name=" + name + ";");
    var fmt := RedactingFormatter(PII_FIELDS);
    FormatRedactsMessageOnly(fmt, rec);
    ScenarioMessage(ssn, name);
    var line := Format(fmt, rec);
    var h := Header(rec);
    assert line == h + "ssn=***;name=***;";
    HeaderShows(rec, "ssn=***;name=***;");
    RedactedPairShows();
    OccursAfterPrefix(h, "ssn=***;name=***;", "ssn=***");
    OccursAfterPrefix(h, "ssn=***;name=***;", "name=***");
  }

  /** Both redacted entries can be found in the redacted message. */
  lemma RedactedPairShows()
    ensures Occurs("ssn=***;name=***;", "ssn=***")
    ensures Occurs("ssn=***;name=***;", "name=***")
  {
    assert MatchAt("ssn=***;name=***;", 0, "ssn=***");
    assert MatchAt("ssn=***;name=***;", 8, "name=***");
  }

  /** The rendered line shows the logger name and the level verbatim. */
  lemma HeaderShows(rec: LogRecord, rest: string)
    ensures Occurs(Header(rec) + rest, rec.name)
    ensures Occurs(Header(rec) + rest, rec.levelname)
  {
    var pad := PadRight(rec.asctime, ASCTIME_WIDTH);
    var tail := " " + pad + ": " + rest;
    assert Header(rec) + rest == "[HOLBERTON] " + rec.name + (" " + rec.levelname + tail);
    OccursWithin("[HOLBERTON] ", rec.name, " " + rec.levelname + tail);
    assert Header(rec) + rest == "[HOLBERTON] " + rec.name + " " + rec.levelname + tail;
    OccursWithin("[HOLBERTON] " + rec.name + " ", rec.levelname, tail);
  }
}

=== FILE: records.dfy ===
/** Messages laid out as `name=value` entries, each closed by a separator
    character, and what `filter_datum` does to them.

  On such a message the sequential passes have a simple closed form: an
  entry keeps its name, and its value becomes the redaction exactly when
  some field selects the entry. Selection is unanchored, as the regular
  expression is: a field selects every entry whose name ends with the
  field, so the field `name` selects `username` as well as `name`.
*/
module Records {
  import opened Redactor

  /** One entry. The name carries whatever text precedes the key in the
      message, such as the space after the previous entry's separator. */
  datatype Entry = Entry(name: string, value: string)

  /** The text of one entry, closed by `terminator`. */
  function EntryText(e: Entry, terminator: char): string {
    e.name + "=" + e.value + [terminator]
  }

  /** The message text of a list of entries. */
  function Render(entries: seq<Entry>, terminator: char): string
    decreases |entries|
  {
    if |entries| == 0 then [] else EntryText(entries[0], terminator) + Render(entries[1..], terminator)
  }

  /** A two-entry message is the two entry texts in order. */
  lemma RenderPair(a: Entry, b: Entry, terminator: char)
    ensures Render([a, b], terminator) == EntryText(a, terminator) + EntryText(b, terminator)
  {
    assert [a, b][1..] == [b];
    assert Render([b], terminator) == EntryText(b, terminator) + [];
  }

  /** The message of two lists of entries is the two messages in order. */
  lemma {:induction false} RenderAppend(a: seq<Entry>, b: seq<Entry>, terminator: char)
    ensures Render(a + b, terminator) == Render(a, terminator) + Render(b, terminator)
    decreases |a|
  {
    if |a| == 0 {
      assert a + b == b;
    } else {
      assert (a + b)[1..] == a[1..] + b;
      RenderAppend(a[1..], b, terminator);
      AppendAssoc(EntryText(a[0], terminator), Render(a[1..], terminator), Render(b, terminator));
    }
  }

  /** The message of the first entry alone. */
  lemma RenderFirst(entries: seq<Entry>, terminator: char)
    requires |entries| > 0
    ensures Render(entries[..1], terminator) == entries[0].name + "=" + entries[0].value + [terminator]
  {
    assert entries[..1] == [entries[0]];
    assert Render(entries[..1], terminator) == EntryText(entries[0], terminator) + [];
  }

  /** One more entry on a message: `joint` is the terminator of the
      message so far, the next name and its `=`. */
  lemma RenderExtend(entries: seq<Entry>, k: nat, p: string, joint: string, terminator: char)
    requires 0 < k < |entries|
    requires Render(entries[..k], terminator) == p + [terminator]
    requires joint == [terminator] + entries[k].name + "="
    ensures Render(entries[..k + 1], terminator) == p + joint + entries[k].value + [terminator]
  {
    var e := entries[k];
    assert entries[..k + 1] == entries[..k] + [e];
    RenderAppend(entries[..k], [e], terminator);
    assert Render([e], terminator) == EntryText(e, terminator) + [];
    assert Render(entries[..k + 1], terminator) == p + [terminator] + (e.name + "=" + e.value + [terminator]);
    assert p + [terminator] + (e.name + "=" + e.value + [terminator]) == p + joint + e.value + [terminator];
  }

  /** Text with no `=`. */
  predicate NoEquals(s: string) {
    forall k :: 0 <= k < |s| ==> s[k] != '='
  }

  /** Every name and value of the entries is clean. */
  predicate WellFormed(entries: seq<Entry>, separator: string) {
    forall i :: 0 <= i < |entries| ==> Clean(entries[i].name, separator) && Clean(entries[i].value, separator)
  }

  /** The entries survive the fields' passes as whole entries: names are
      clean and no value holds `=`, and a value that some field selects
      holds no separator character either, since the pattern's value
      stops at the first one. Values nobody selects may hold separator
      characters. */
  predicate Parsable(fields: seq<string>, entries: seq<Entry>, separator: string) {
    forall i :: 0 <= i < |entries| ==>
      && Clean(entries[i].name, separator) && NoEquals(entries[i].value)
      && (SelectedBy(fields, entries[i].name) ==> Clean(entries[i].value, separator))
  }

  /** The pattern for `field` matches the key of an entry with this name:
      the name ends with the field name. */
  predicate Selects(field: string, name: string) {
    |field| <= |name| && name[|name| - |field|..] == field
  }

  /** Some field of the list selects the name. */
  predicate SelectedBy(fields: seq<string>, name: string) {
    exists j :: 0 <= j < |fields| && Selects(fields[j], name)
  }

  /** The entry after one field's pass. */
  function RedactEntry(field: string, redaction: string, e: Entry): Entry {
    if Selects(field, e.name) then Entry(e.name, redaction) else e
  }

  /** The entries after one field's pass. */
  function RedactEntries(field: string, redaction: string, entries: seq<Entry>): (r: seq<Entry>)
    ensures |r| == |entries|
    ensures forall i :: 0 <= i < |entries| ==> r[i] == RedactEntry(field, redaction, entries[i])
    decreases |entries|
  {
    if |entries| == 0 then []
    else [RedactEntry(field, redaction, entries[0])] + RedactEntries(field, redaction, entries[1..])
  }

  /** The entries after one pass per field, in list order. The fold
      collapses: an entry is redacted when any field selects it. */
  function RedactAll(fields: seq<string>, redaction: string, entries: seq<Entry>): (r: seq<Entry>)
    ensures |r| == |entries|
    ensures forall i :: 0 <= i < |entries| ==>
              r[i] == (if SelectedBy(fields, entries[i].name) then Entry(entries[i].name, redaction) else entries[i])
    decreases |fields|
  {
    if |fields| == 0 then entries
    else
      var r := RedactAll(fields[1..], redaction, RedactEntries(fields[0], redaction, entries));
      assert forall i :: 0 <= i < |entries| ==>
               (SelectedBy(fields, entries[i].name)
                <==> Selects(fields[0], entries[i].name) || SelectedBy(fields[1..], entries[i].name)) by {
        forall i | 0 <= i < |entries|
          ensures SelectedBy(fields, entries[i].name)
                  <==> Selects(fields[0], entries[i].name) || SelectedBy(fields[1..], entries[i].name)
        {
          SelectedBySplit(fields, entries[i].name);
        }
      }
      r
  }

  lemma SelectedBySplit(fields: seq<string>, name: string)
    requires |fields| > 0
    ensures SelectedBy(fields, name) <==> Selects(fields[0], name) || SelectedBy(fields[1..], name)
  {
    if SelectedBy(fields, name) {
      var j :| 0 <= j < |fields| && Selects(fields[j], name);
      if j > 0 {
        assert fields[1..][j - 1] == fields[j];
      }
    }
    if SelectedBy(fields[1..], name) {
      var j :| 0 <= j < |fields[1..]| && Selects(fields[1..][j], name);
      assert fields[j + 1] == fields[1..][j];
    }
  }

  // ---------------------------------------------------------------------
  // One pass over one entry.

  /** A value without `=` followed by a separator holds no match: the
      pass copies both. */
  lemma {:induction false} ValueThenTerminator(field: string, redaction: string, value: string, t: char, rest: string, separator: string)
    requires LiteralPass(field, redaction, separator)
    requires Clean(field, separator) && NoEquals(value)
    requires t in separator && '=' !in separator
    ensures SubOne(field, redaction, value + [t] + rest, separator)
            == value + [t] + SubOne(field, redaction, rest, separator)
    decreases |value|
  {
    var key := Key(field);
    var s := value + [t] + rest;
    assert !MatchAt(s, 0, key) by {
      var e := |key| - 1;
      assert key[e] == '=';
      if |key| <= |s| {
        if e < |value| {
          assert s[..|key|][e] == value[e] != key[e];
        } else if e == |value| {
          assert s[..|key|][e] == t != key[e];
        } else {
          assert key[|value|] == field[|value|];
          assert s[..|key|][|value|] == t != key[|value|];
        }
      }
    }
    SubOneCopy(field, redaction, s, separator);
    if |value| == 0 {
      assert s[1..] == rest;
    } else {
      assert s[1..] == value[1..] + [t] + rest;
      ValueThenTerminator(field, redaction, value[1..], t, rest, separator);
      assert value == [value[0]] + value[1..];
    }
  }

  /** One pass over `name=value<t>` followed by more text: the value is
      replaced when the field selects the entry, the entry is copied
      otherwise, and the scan continues after the separator. */
  lemma {:induction false} SubOneEntry(field: string, redaction: string, name: string, value: string, t: char, rest: string, separator: string)
    requires LiteralPass(field, redaction, separator)
    requires Clean(field, separator) && Clean(name, separator) && NoEquals(value)
    requires Selects(field, name) ==> Clean(value, separator)
    requires t in separator && '=' !in separator
    ensures SubOne(field, redaction, name + "=" + value + [t] + rest, separator)
            == (if Selects(field, name) then name + "=" + redaction else name + "=" + value)
               + [t] + SubOne(field, redaction, rest, separator)
    decreases |name|, 1
  {
    if field == name {
      assert Selects(field, name) by {
        assert name[|name| - |field|..] == field;
      }
      SubOneEntryKey(field, redaction, value, t, rest, separator);
    } else if |name| == 0 {
      SubOneEntryUnnamed(field, redaction, value, t, rest, separator);
    } else {
      SubOneEntryShift(field, redaction, name, value, t, rest, separator);
    }
  }

  /** An entry with an empty name is never selected by a non-empty field:
      it is copied whole. */
  lemma SubOneEntryUnnamed(field: string, redaction: string, value: string, t: char, rest: string, separator: string)
    requires LiteralPass(field, redaction, separator)
    requires Clean(field, separator) && NoEquals(value)
    requires t in separator && '=' !in separator
    requires field != []
    ensures !Selects(field, [])
    ensures SubOne(field, redaction, [] + "=" + value + [t] + rest, separator)
            == [] + "=" + value + [t] + SubOne(field, redaction, rest, separator)
  {
    var s := [] + "=" + value + [t] + rest;
    var after := SubOne(field, redaction, rest, separator);
    assert SubOne(field, redaction, s, separator) == ['='] + SubOne(field, redaction, value + [t] + rest, separator) by {
      EntryCopyStep(field, redaction, [], value, t, rest, separator);
      assert s[0] == '=' && s[1..] == value + [t] + rest;
    }
    assert SubOne(field, redaction, value + [t] + rest, separator) == value + [t] + after by {
      ValueThenTerminator(field, redaction, value, t, rest, separator);
    }
    assert ['='] + (value + [t] + after) == [] + "=" + value + [t] + after;
  }

  /** The inductive step of `SubOneEntry`: a name other than the field
      loses its first character to the copy. */
  lemma {:induction false} SubOneEntryShift(field: string, redaction: string, name: string, value: string, t: char, rest: string, separator: string)
    requires LiteralPass(field, redaction, separator)
    requires Clean(field, separator) && Clean(name, separator) && NoEquals(value)
    requires Selects(field, name) ==> Clean(value, separator)
    requires t in separator && '=' !in separator
    requires field != name && |name| > 0
    ensures SubOne(field, redaction, name + "=" + value + [t] + rest, separator)
            == (if Selects(field, name) then name + "=" + redaction else name + "=" + value)
               + [t] + SubOne(field, redaction, rest, separator)
    decreases |name|, 0
  {
    var after := SubOne(field, redaction, rest, separator);
    var kept := if Selects(field, name) then redaction else value;
    assert Selects(field, name[1..]) <==> Selects(field, name) by {
      if |field| < |name| {
        assert name[1..][|name[1..]| - |field|..] == name[|name| - |field|..];
      }
    }
    EntryCopyStep(field, redaction, name, value, t, rest, separator);
    SubOneEntry(field, redaction, name[1..], value, t, rest, separator);
    ConsEntry(name, kept, t, after);
  }

  /** Inside an entry whose name differs from the field, the pass copies
      one character. */
  lemma EntryCopyStep(field: string, redaction: string, name: string, value: string, t: char, rest: string, separator: string)
    requires LiteralPass(field, redaction, separator)
    requires Clean(field, separator) && Clean(name, separator)
    requires field != name
    ensures var s := name + "=" + value + [t] + rest;
            SubOne(field, redaction, s, separator) == [s[0]] + SubOne(field, redaction, s[1..], separator)
            && s[1..] == (if |name| == 0 then value + [t] + rest else name[1..] + "=" + value + [t] + rest)
            && (|name| > 0 ==> s[0] == name[0])
  {
    var s := name + "=" + value + [t] + rest;
    EntryKeyMismatch(field, name, value, t, rest, separator);
    SubOneCopy(field, redaction, s, separator);
  }

  /** Sequence regrouping for the step from `name[1..]` to `name`. */
  lemma ConsEntry(name: string, v: string, t: char, after: string)
    requires |name| > 0
    ensures [name[0]] + (name[1..] + "=" + v + [t] + after) == name + "=" + v + [t] + after
  {
    assert name == [name[0]] + name[1..];
  }

  /** An entry whose name is exactly the field: its value is replaced. */
  lemma SubOneEntryKey(field: string, redaction: string, value: string, t: char, rest: string, separator: string)
    requires LiteralPass(field, redaction, separator)
    requires Clean(field, separator) && Clean(value, separator)
    requires t in separator && '=' !in separator
    ensures SubOne(field, redaction, field + "=" + value + [t] + rest, separator)
            == field + "=" + redaction + [t] + SubOne(field, redaction, rest, separator)
  {
    var key := Key(field);
    var s := field + "=" + value + [t] + rest;
    assert MatchAt(s, 0, key) by {
      assert s[..|key|] == key;
    }
    SubOneMatch(field, redaction, s, separator);
    KeyValueSkip(key, value, t, rest, separator);
    ValueThenTerminator(field, redaction, [], t, rest, separator);
    assert [] + [t] + rest == [t] + rest;
  }

  /** After a key and a clean value, the value ends at the terminator. */
  lemma KeyValueSkip(key: string, value: string, t: char, rest: string, separator: string)
    requires Clean(value, separator) && t in separator
    ensures var tail := (key + value + [t] + rest)[|key|..];
            tail[ValueLen(tail, separator)..] == [t] + rest
  {
    var tail := (key + value + [t] + rest)[|key|..];
    assert tail == value + [t] + rest;
    ValueLenUnique(tail, separator, |value|);
  }

  /** Starting at a name other than the field, an entry's text does not
      begin with the field's key. */
  lemma EntryKeyMismatch(field: string, name: string, value: string, t: char, rest: string, separator: string)
    requires Clean(field, separator) && Clean(name, separator)
    requires field != name
    ensures !MatchAt(name + "=" + value + [t] + rest, 0, Key(field))
  {
    var key := Key(field);
    var s := name + "=" + value + [t] + rest;
    if |key| <= |s| {
      if |field| < |name| {
        assert name[|field|] in name;
        assert s[..|key|][|field|] == name[|field|] != key[|field|];
      } else if |field| == |name| {
        assert s[..|key|][..|field|] == name;
        assert key[..|field|] == field;
      } else {
        assert key[|name|] == field[|name|] && field[|name|] in field;
        assert s[..|key|][|name|] == '=' != key[|name|];
      }
    }
  }

  // ---------------------------------------------------------------------
  // Whole messages.

  /** One pass over a rendered message redacts exactly the selected
      entries. */
  lemma {:induction false} SubOneRender(field: string, redaction: string, entries: seq<Entry>, t: char, separator: string)
    requires LiteralPass(field, redaction, separator)
    requires Clean(field, separator) && Parsable([field], entries, separator)
    requires t in separator && '=' !in separator
    ensures SubOne(field, redaction, Render(entries, t), separator)
            == Render(RedactEntries(field, redaction, entries), t)
    decreases |entries|
  {
    if |entries| > 0 {
      var rest := Render(entries[1..], t);
      var head := EntryText(RedactEntry(field, redaction, entries[0]), t);
      assert SubOne(field, redaction, Render(entries, t), separator)
             == head + SubOne(field, redaction, rest, separator) by {
        if Selects(field, entries[0].name) {
          assert Selects([field][0], entries[0].name);
        }
        SubOneEntryText(field, redaction, entries[0], t, rest, separator);
      }
      assert Parsable([field], entries[1..], separator) by {
        forall i | 0 <= i < |entries[1..]|
          ensures entries[1..][i] == entries[i + 1]
        {
        }
      }
      SubOneRender(field, redaction, entries[1..], t, separator);
      var r := RedactEntries(field, redaction, entries);
      assert r[1..] == RedactEntries(field, redaction, entries[1..]);
      assert Render(r, t) == head + Render(r[1..], t);
    }
  }

  /** `SubOneEntry` in terms of entries. */
  lemma SubOneEntryText(field: string, redaction: string, e: Entry, t: char, rest: string, separator: string)
    requires LiteralPass(field, redaction, separator)
    requires Clean(field, separator) && Clean(e.name, separator) && NoEquals(e.value)
    requires Selects(field, e.name) ==> Clean(e.value, separator)
    requires t in separator && '=' !in separator
    ensures SubOne(field, redaction, EntryText(e, t) + rest, separator)
            == EntryText(RedactEntry(field, redaction, e), t) + SubOne(field, redaction, rest, separator)
  {
    SubOneEntry(field, redaction, e.name, e.value, t, rest, separator);
  }

  /** `filter_datum` over a rendered message renders the entries with
      every selected value replaced. */
  lemma {:induction false} FilterDatumRender(fields: seq<string>, redaction: string, entries: seq<Entry>, t: char, separator: string)
    requires LiteralArgs(fields, redaction, separator)
    requires forall j :: 0 <= j < |fields| ==> Clean(fields[j], separator)
    requires Clean(redaction, separator) && Parsable(fields, entries, separator)
    requires t in separator && '=' !in separator
    ensures FilterDatum(fields, redaction, Render(entries, t), separator)
            == Render(RedactAll(fields, redaction, entries), t)
    decreases |fields|
  {
    if |fields| > 0 {
      ParsableSplit(fields, redaction, entries, separator);
      SubOneRender(fields[0], redaction, entries, t, separator);
      var once := RedactEntries(fields[0], redaction, entries);
      FilterDatumRender(fields[1..], redaction, once, t, separator);
    }
  }

  /** Entries parsable under a list of fields are parsable under its
      first field, and after that field's pass, under the remaining
      fields. */
  lemma ParsableSplit(fields: seq<string>, redaction: string, entries: seq<Entry>, separator: string)
    requires |fields| > 0 && Clean(redaction, separator)
    requires Parsable(fields, entries, separator)
    ensures Parsable([fields[0]], entries, separator)
    ensures Parsable(fields[1..], RedactEntries(fields[0], redaction, entries), separator)
  {
    forall i | 0 <= i < |entries|
      ensures SelectedBy([fields[0]], entries[i].name) ==> SelectedBy(fields, entries[i].name)
      ensures SelectedBy(fields[1..], entries[i].name) ==> SelectedBy(fields, entries[i].name)
    {
      SelectedBySplit(fields, entries[i].name);
      SelectedBySplit([fields[0]], entries[i].name);
    }
  }

  /** Clean entries are parsable under any fields. */
  lemma WellFormedParsable(fields: seq<string>, entries: seq<Entry>, separator: string)
    requires WellFormed(entries, separator)
    ensures Parsable(fields, entries, separator)
  {
  }

  /** Redaction keeps entries parsable when the redaction is clean. */
  lemma ParsableRedactAll(fields: seq<string>, redaction: string, entries: seq<Entry>, separator: string)
    requires Clean(redaction, separator) && Parsable(fields, entries, separator)
    ensures Parsable(fields, RedactAll(fields, redaction, entries), separator)
  {
  }

  /** On rendered messages the whole routine is idempotent, given a clean
      redaction: a second run finds every selected value already
      redacted. */
  lemma FilterDatumRenderIdempotent(fields: seq<string>, redaction: string, entries: seq<Entry>, t: char, separator: string)
    requires LiteralArgs(fields, redaction, separator)
    requires forall j :: 0 <= j < |fields| ==> Clean(fields[j], separator)
    requires Clean(redaction, separator) && Parsable(fields, entries, separator)
    requires t in separator && '=' !in separator
    ensures var once := FilterDatum(fields, redaction, Render(entries, t), separator);
            FilterDatum(fields, redaction, once, separator) == once
  {
    var r := RedactAll(fields, redaction, entries);
    FilterDatumRender(fields, redaction, entries, t, separator);
    ParsableRedactAll(fields, redaction, entries, separator);
    FilterDatumRender(fields, redaction, r, t, separator);
    assert RedactAll(fields, redaction, r) == r;
  }
}

=== FILE: redactor.dfy ===
/** Field redaction: the `filter_datum` routine of the personal-data logger.

  One redaction pass rewrites every leftmost, non-overlapping occurrence of
  `field=<value>` in a message into `field=<redaction>`, where `<value>` is
  the longest run of characters outside the separator set. That is what one
  call of Python's `re.sub` with pattern `field=[^separator]*` and
  replacement `field=redaction` does when field, separator and redaction
  carry no regular-expression syntax (the `Plain*` predicates below). The
  routine applies one pass per field, in list order, each over the result
  of the previous one.
*/
module Redactor {

  /** Characters with a meaning of their own in a regular expression. */
  const RegexSpecial: set<char> :=
    {'.', '^', '$', '*', '+', '?', '{', '}', '[', ']', '\\', '|', '(', ')'}

  /** Characters with a meaning of their own inside a character set `[^...]`. */
  const SetSpecial: set<char> := {']', '\\', '^', '-'}

  /** A field name that the pattern reads as literal text. */
  predicate PlainField(field: string) {
    forall k :: 0 <= k < |field| ==> field[k] !in RegexSpecial
  }

  /** A separator that `[^separator]` reads as "any character not listed":
      non-empty (`[^]` does not compile) and free of set syntax. */
  predicate PlainSeparator(separator: string) {
    |separator| > 0 && forall k :: 0 <= k < |separator| ==> separator[k] !in SetSpecial
  }

  /** A redaction that the replacement template copies verbatim. */
  predicate PlainRedaction(redaction: string) {
    '\\' !in redaction
  }

  /** The inputs of one pass lie in the fragment where the regular
      expression means literal matching. */
  predicate LiteralPass(field: string, redaction: string, separator: string) {
    PlainField(field) && PlainRedaction(redaction) && PlainSeparator(separator)
  }

  /** The inputs of the whole routine lie in that fragment. With no fields
      no pattern is ever built, so redaction and separator are then free. */
  predicate LiteralArgs(fields: seq<string>, redaction: string, separator: string) {
    (forall i :: 0 <= i < |fields| ==> PlainField(fields[i]))
    && (|fields| > 0 ==> PlainRedaction(redaction) && PlainSeparator(separator))
  }

  /** The literal text a pass looks for. */
  function Key(field: string): string {
    field + "="
  }

  /** The text a pass writes in place of each match. */
  function Replacement(field: string, redaction: string): string {
    Key(field) + redaction
  }

  /** `key` occurs in `s` starting at index `i`. */
  predicate MatchAt(s: string, i: nat, key: string) {
    i <= |s| && key <= s[i..]
  }

  /** `key` occurs somewhere in `s`. */
  predicate Occurs(s: string, key: string) {
    exists i: nat :: i <= |s| && MatchAt(s, i, key)
  }

  /** Whatever surrounds `key`, it occurs in the result. */
  lemma OccursWithin(pre: string, key: string, post: string)
    ensures Occurs(pre + key + post, key)
  {
    var s := pre + key + post;
    assert s[|pre|..] == key + post;
    assert MatchAt(s, |pre|, key);
  }

  /** An occurrence survives text written in front of it. */
  lemma OccursAfterPrefix(h: string, s: string, key: string)
    requires Occurs(s, key)
    ensures Occurs(h + s, key)
  {
    var i: nat :| i <= |s| && MatchAt(s, i, key);
    assert (h + s)[|h| + i..] == s[i..];
    assert MatchAt(h + s, |h| + i, key);
  }

  /** Text with no `=` and no separator character. */
  predicate Clean(s: string, separator: string) {
    forall k :: 0 <= k < |s| ==> s[k] != '=' && s[k] !in separator
  }

  /** No character of `s` belongs to the separator set. */
  predicate NoSeparator(s: string, separator: string) {
    forall k :: 0 <= k < |s| ==> s[k] !in separator
  }

  /** Length of the value `[^separator]*` captures at the start of `s`:
      the longest prefix free of separator characters. */
  function ValueLen(s: string, separator: string): (n: nat)
    ensures n <= |s|
    ensures forall k :: 0 <= k < n ==> s[k] !in separator
    ensures n == |s| || s[n] in separator
  {
    if |s| == 0 || s[0] in separator then 0 else 1 + ValueLen(s[1..], separator)
  }

  /** One `re.sub` pass for one field, as a left-to-right scan: at a match,
      emit the replacement and skip the key and its value; elsewhere copy
      one character and move on. */
  function SubOne(field: string, redaction: string, message: string, separator: string): string
    requires LiteralPass(field, redaction, separator)
    decreases |message|
  {
    if |message| == 0 then []
    else if MatchAt(message, 0, Key(field)) then
      var tail := message[|Key(field)|..];
      Replacement(field, redaction) + SubOne(field, redaction, tail[ValueLen(tail, separator)..], separator)
    else
      [message[0]] + SubOne(field, redaction, message[1..], separator)
  }

  /** `filter_datum`: one pass per field, in list order, over the
      accumulating message. */
  function FilterDatum(fields: seq<string>, redaction: string, message: string, separator: string): string
    requires LiteralArgs(fields, redaction, separator)
    decreases |fields|
  {
    if |fields| == 0 then message
    else FilterDatum(fields[1..], redaction, SubOne(fields[0], redaction, message, separator), separator)
  }

  // ---------------------------------------------------------------------
  // Executable scan, written the way the regex engine walks the string.

  /** The single pass as a loop over an index into the message. */
  method Substitute(field: string, redaction: string, message: string, separator: string)
    returns (r: string)
    requires LiteralPass(field, redaction, separator)
    ensures r == SubOne(field, redaction, message, separator)
  {
    var key := Key(field);
    var i := 0;
    r := [];
    while i < |message|
      invariant 0 <= i <= |message|
      invariant r + SubOne(field, redaction, message[i..], separator)
             == SubOne(field, redaction, message, separator)
      decreases |message| - i
    {
      if MatchAt(message, i, key) {
        var j := ScanValue(message, separator, i + |key|);
        ScanMatchStep(field, redaction, message, separator, i, j);
        AppendAssoc(r, Replacement(field, redaction), SubOne(field, redaction, message[j..], separator));
        r := r + Replacement(field, redaction);
        i := j;
      } else {
        ScanCopyStep(field, redaction, message, separator, i);
        AppendAssoc(r, [message[i]], SubOne(field, redaction, message[i + 1..], separator));
        r := r + [message[i]];
        i := i + 1;
      }
    }
  }

  /** The end of the value that starts at `start`: the first separator
      character at or after `start`, or the end of the message. */
  method ScanValue(message: string, separator: string, start: nat) returns (j: nat)
    requires start <= |message|
    ensures start <= j <= |message|
    ensures forall k :: start <= k < j ==> message[k] !in separator
    ensures j == |message| || message[j] in separator
    ensures j - start == ValueLen(message[start..], separator)
  {
    j := start;
    while j < |message| && message[j] !in separator
      invariant start <= j <= |message|
      invariant forall k :: start <= k < j ==> message[k] !in separator
      decreases |message| - j
    {
      j := j + 1;
    }
    var tail := message[start..];
    forall k | 0 <= k < j - start ensures tail[k] !in separator {
      assert tail[k] == message[start + k];
    }
    ValueLenUnique(tail, separator, j - start);
  }

  lemma AppendAssoc(a: string, b: string, c: string)
    ensures a + (b + c) == (a + b) + c
  {
  }

  /** At a match, the scan emits the replacement and resumes after the
      value, which ends at index `j`. */
  lemma ScanMatchStep(field: string, redaction: string, message: string, separator: string, i: nat, j: nat)
    requires LiteralPass(field, redaction, separator)
    requires MatchAt(message, i, Key(field))
    requires i + |Key(field)| <= j <= |message|
    requires j - (i + |Key(field)|) == ValueLen(message[i + |Key(field)|..], separator)
    ensures SubOne(field, redaction, message[i..], separator)
            == Replacement(field, redaction) + SubOne(field, redaction, message[j..], separator)
  {
    var key := Key(field);
    var suffix := message[i..];
    assert MatchAt(suffix, 0, key) by {
      assert suffix[0..] == suffix;
    }
    SubOneMatch(field, redaction, suffix, separator);
    var tail := suffix[|key|..];
    assert tail[ValueLen(tail, separator)..] == message[j..] by {
      assert tail == message[i + |key|..];
    }
  }

  /** Away from a match, the scan copies one character. */
  lemma ScanCopyStep(field: string, redaction: string, message: string, separator: string, i: nat)
    requires LiteralPass(field, redaction, separator)
    requires i < |message|
    requires !MatchAt(message, i, Key(field))
    ensures SubOne(field, redaction, message[i..], separator)
            == [message[i]] + SubOne(field, redaction, message[i + 1..], separator)
  {
    var suffix := message[i..];
    if |Key(field)| <= |suffix| {
      assert suffix[..|Key(field)|] == message[i..i + |Key(field)|];
    }
    assert suffix[1..] == message[i + 1..];
  }

  /** The Python loop: one pass per field over the accumulating message. */
  method FilterDatumLoop(fields: seq<string>, redaction: string, message: string, separator: string)
    returns (r: string)
    requires LiteralArgs(fields, redaction, separator)
    ensures r == FilterDatum(fields, redaction, message, separator)
  {
    r := message;
    for i := 0 to |fields|
      invariant FilterDatum(fields[i..], redaction, r, separator)
             == FilterDatum(fields, redaction, message, separator)
    {
      assert fields[i..][1..] == fields[i + 1..];
      r := Substitute(fields[i], redaction, r, separator);
    }
  }

  // ---------------------------------------------------------------------
  // Lemmas about the value run and the key.

  /** The value run is determined by its two defining properties. */
  lemma {:induction false} ValueLenUnique(s: string, separator: string, n: nat)
    requires n <= |s|
    requires forall k :: 0 <= k < n ==> s[k] !in separator
    requires n == |s| || s[n] in separator
    ensures ValueLen(s, separator) == n
    decreases n
  {
    if n > 0 {
      ValueLenUnique(s[1..], separator, n - 1);
    }
  }

  /** Matching one index further into `s` is matching in `s[1..]`. */
  lemma MatchShift(s: string, i: nat, key: string)
    requires |s| > 0
    ensures MatchAt(s, i + 1, key) <==> MatchAt(s[1..], i, key)
  {
    if i + |key| <= |s[1..]| {
      assert s[1..][i..i + |key|] == s[i + 1..i + 1 + |key|];
    }
  }

  /** A match inside `h + m` at an index past `h` is a match inside `m`. */
  lemma MatchAfter(h: string, m: string, i: nat, key: string)
    ensures MatchAt(h + m, |h| + i, key) <==> MatchAt(m, i, key)
  {
    if |h| + i + |key| <= |h + m| {
      assert (h + m)[|h| + i..|h| + i + |key|] == m[i..i + |key|];
    }
  }

  // ---------------------------------------------------------------------
  // Properties of one pass.

  /** Away from a match the pass copies the first character. */
  lemma SubOneCopy(field: string, redaction: string, m: string, separator: string)
    requires LiteralPass(field, redaction, separator)
    requires |m| > 0 && !MatchAt(m, 0, Key(field))
    ensures SubOne(field, redaction, m, separator) == [m[0]] + SubOne(field, redaction, m[1..], separator)
  {
  }

  /** At a match the pass writes the replacement and resumes after the
      value. */
  lemma SubOneMatch(field: string, redaction: string, m: string, separator: string)
    requires LiteralPass(field, redaction, separator)
    requires MatchAt(m, 0, Key(field))
    ensures var tail := m[|Key(field)|..];
            SubOne(field, redaction, m, separator)
            == Replacement(field, redaction) + SubOne(field, redaction, tail[ValueLen(tail, separator)..], separator)
  {
  }

  /** A prefix in which no match starts passes through unchanged, and the
      scan resumes on the rest exactly as if the prefix were not there. */
  lemma {:induction false} SubOneInertPrefix(field: string, redaction: string, h: string, m: string, separator: string)
    requires LiteralPass(field, redaction, separator)
    requires forall j :: 0 <= j < |h| ==> !MatchAt(h + m, j, Key(field))
    ensures SubOne(field, redaction, h + m, separator) == h + SubOne(field, redaction, m, separator)
    decreases |h|
  {
    if |h| > 0 {
      var r := SubOne(field, redaction, m, separator);
      assert !MatchAt(h + m, 0, Key(field));
      SubOneCopy(field, redaction, h + m, separator);
      assert (h + m)[1..] == h[1..] + m;
      forall j | 0 <= j < |h[1..]|
        ensures !MatchAt(h[1..] + m, j, Key(field))
      {
        MatchShift(h + m, j, Key(field));
      }
      SubOneInertPrefix(field, redaction, h[1..], m, separator);
      assert [h[0]] + (h[1..] + r) == h + r by {
        assert h == [h[0]] + h[1..];
      }
    } else {
      assert h + m == m;
    }
  }

  /** When a field's key occurs nowhere, its pass leaves the message as is. */
  lemma {:induction false} SubOneAbsent(field: string, redaction: string, m: string, separator: string)
    requires LiteralPass(field, redaction, separator)
    requires !Occurs(m, Key(field))
    ensures SubOne(field, redaction, m, separator) == m
  {
    forall j | 0 <= j < |m|
      ensures !MatchAt(m + [], j, Key(field))
    {
      assert m + [] == m;
      if MatchAt(m, j, Key(field)) {
        assert Occurs(m, Key(field));
      }
    }
    SubOneInertPrefix(field, redaction, m, [], separator);
    assert m + [] == m;
  }

  /** The first match decides: everything before it is copied, the match
      and its value become the replacement, and the scan resumes right
      after the value. */
  lemma SubOneLeftmost(field: string, redaction: string, m: string, separator: string, i: nat)
    requires LiteralPass(field, redaction, separator)
    requires MatchAt(m, i, Key(field))
    requires forall j :: 0 <= j < i ==> !MatchAt(m, j, Key(field))
    ensures var tail := m[i + |Key(field)|..];
            SubOne(field, redaction, m, separator)
            == m[..i] + Replacement(field, redaction)
               + SubOne(field, redaction, tail[ValueLen(tail, separator)..], separator)
  {
    assert m == m[..i] + m[i..];
    SubOneInertPrefix(field, redaction, m[..i], m[i..], separator);
    assert m[i..][..|Key(field)|] == Key(field);
    assert m[i..][|Key(field)|..] == m[i + |Key(field)|..];
  }

  /** The captured value stops at the first separator character or at the
      end of the message: `field=` and everything from that separator on
      are kept, and only the value is replaced. */
  lemma SubOneBoundary(field: string, redaction: string, value: string, rest: string, separator: string)
    requires LiteralPass(field, redaction, separator)
    requires NoSeparator(value, separator)
    requires |rest| == 0 || rest[0] in separator
    ensures SubOne(field, redaction, Key(field) + value + rest, separator)
            == Replacement(field, redaction) + SubOne(field, redaction, rest, separator)
  {
    var m := Key(field) + value + rest;
    assert MatchAt(m, 0, Key(field)) by {
      assert m[..|Key(field)|] == Key(field);
    }
    var tail := m[|Key(field)|..];
    assert tail == value + rest;
    ValueLenUnique(tail, separator, |value|);
    assert tail[|value|..] == rest;
  }

  /** If the key occurs, the pass writes at least one replacement. */
  lemma {:induction false} SubOneRedactionAppears(field: string, redaction: string, m: string, separator: string)
    requires LiteralPass(field, redaction, separator)
    requires Occurs(m, Key(field))
    ensures Occurs(SubOne(field, redaction, m, separator), Replacement(field, redaction))
    decreases |m|
  {
    var rep := Replacement(field, redaction);
    var j: nat :| MatchAt(m, j, Key(field));
    if MatchAt(m, 0, Key(field)) {
      var r := SubOne(field, redaction, m, separator);
      assert r[..|rep|] == rep;
      assert MatchAt(r, 0, rep);
    } else {
      assert j > 0;
      MatchShift(m, j - 1, Key(field));
      assert Occurs(m[1..], Key(field));
      SubOneRedactionAppears(field, redaction, m[1..], separator);
      var y := SubOne(field, redaction, m[1..], separator);
      var k: nat :| MatchAt(y, k, rep);
      MatchAfter([m[0]], y, k, rep);
      assert MatchAt([m[0]] + y, k + 1, rep);
    }
  }

  /** The pass never disturbs the first `|Key(field)|` characters: a match
      there writes the key back, and a message shorter than the key is
      copied whole. */
  lemma {:induction false} SubOnePrefixKept(field: string, redaction: string, m: string, separator: string)
    requires LiteralPass(field, redaction, separator)
    ensures |m| < |Key(field)| ==> SubOne(field, redaction, m, separator) == m
    ensures |m| >= |Key(field)| ==>
              var r := SubOne(field, redaction, m, separator);
              |r| >= |Key(field)| && r[..|Key(field)|] == m[..|Key(field)|]
    decreases |m|
  {
    var key := Key(field);
    var r := SubOne(field, redaction, m, separator);
    if |m| == 0 {
    } else if MatchAt(m, 0, key) {
      assert Replacement(field, redaction)[..|key|] == key;
    } else {
      SubOnePrefixKept(field, redaction, m[1..], separator);
      var y := SubOne(field, redaction, m[1..], separator);
      assert r == [m[0]] + y;
      if |m[1..]| < |key| {
        assert m == [m[0]] + m[1..];
      } else {
        assert r[..|key|] == [m[0]] + y[..|key| - 1];
        assert m[..|key|] == [m[0]] + m[1..][..|key| - 1];
      }
    }
  }

  /** A non-empty message keeps its first character. */
  lemma SubOneHeadKept(field: string, redaction: string, m: string, separator: string)
    requires LiteralPass(field, redaction, separator)
    requires |m| > 0
    ensures |SubOne(field, redaction, m, separator)| > 0
    ensures SubOne(field, redaction, m, separator)[0] == m[0]
  {
    SubOnePrefixKept(field, redaction, m, separator);
    var r := SubOne(field, redaction, m, separator);
    if |m| >= |Key(field)| {
      assert r[0] == r[..|Key(field)|][0];
    }
  }

  /** A pass does not start a match where the original had none: if `m`
      does not start with the key, neither does its redaction. */
  lemma SubOneNoNewMatchAtHead(field: string, redaction: string, m: string, separator: string)
    requires LiteralPass(field, redaction, separator)
    requires !MatchAt(m, 0, Key(field))
    ensures !MatchAt(SubOne(field, redaction, m, separator), 0, Key(field))
  {
    SubOnePrefixKept(field, redaction, m, separator);
  }

  /** One pass is idempotent when the redaction contains no separator
      character: a second pass finds the same matches and rewrites each
      value, now the redaction itself, to the redaction again. */
  lemma {:induction false} SubOneIdempotent(field: string, redaction: string, m: string, separator: string)
    requires LiteralPass(field, redaction, separator)
    requires NoSeparator(redaction, separator)
    ensures var once := SubOne(field, redaction, m, separator);
            SubOne(field, redaction, once, separator) == once
    decreases |m|
  {
    var key := Key(field);
    if |m| == 0 {
    } else if MatchAt(m, 0, key) {
      var tail := m[|key|..];
      SubOneIdempotent(field, redaction, tail[ValueLen(tail, separator)..], separator);
      IdempotentMatchStep(field, redaction, m, separator);
    } else {
      SubOneIdempotent(field, redaction, m[1..], separator);
      IdempotentCopyStep(field, redaction, m, separator);
    }
  }

  /** The step of `SubOneIdempotent` at a match: the value is skipped. */
  lemma IdempotentMatchStep(field: string, redaction: string, m: string, separator: string)
    requires LiteralPass(field, redaction, separator)
    requires NoSeparator(redaction, separator)
    requires MatchAt(m, 0, Key(field))
    requires var tail := m[|Key(field)|..];
             var rest := tail[ValueLen(tail, separator)..];
             var x := SubOne(field, redaction, rest, separator);
             SubOne(field, redaction, x, separator) == x
    ensures var once := SubOne(field, redaction, m, separator);
            SubOne(field, redaction, once, separator) == once
  {
    var key := Key(field);
    var tail := m[|key|..];
    var rest := tail[ValueLen(tail, separator)..];
    var x := SubOne(field, redaction, rest, separator);
    assert SubOne(field, redaction, m, separator) == key + redaction + x;
    if |rest| > 0 {
      SubOneHeadKept(field, redaction, rest, separator);
    }
    SubOneBoundary(field, redaction, redaction, x, separator);
  }

  /** The step of `SubOneIdempotent` where the first character is copied. */
  lemma IdempotentCopyStep(field: string, redaction: string, m: string, separator: string)
    requires LiteralPass(field, redaction, separator)
    requires |m| > 0 && !MatchAt(m, 0, Key(field))
    requires var y := SubOne(field, redaction, m[1..], separator);
             SubOne(field, redaction, y, separator) == y
    ensures var once := SubOne(field, redaction, m, separator);
            SubOne(field, redaction, once, separator) == once
  {
    var key := Key(field);
    var once := SubOne(field, redaction, m, separator);
    var y := SubOne(field, redaction, m[1..], separator);
    SubOneCopy(field, redaction, m, separator);
    SubOneNoNewMatchAtHead(field, redaction, m, separator);
    SubOneCopy(field, redaction, once, separator);
    assert once[1..] == y;
  }

  // ---------------------------------------------------------------------
  // Properties of the whole routine.

  /** An empty field list leaves the message unchanged. */
  lemma FilterDatumEmpty(redaction: string, message: string, separator: string)
    ensures LiteralArgs([], redaction, separator)
    ensures FilterDatum([], redaction, message, separator) == message
  {
  }

  /** Fields are applied one after another, first field first, each over
      the result of the previous pass. */
  lemma FilterDatumStep(field: string, fields: seq<string>, redaction: string, message: string, separator: string)
    requires LiteralArgs([field] + fields, redaction, separator)
    ensures LiteralPass(field, redaction, separator)
    ensures LiteralArgs(fields, redaction, separator)
    ensures FilterDatum([field] + fields, redaction, message, separator)
            == FilterDatum(fields, redaction, SubOne(field, redaction, message, separator), separator)
  {
    assert ([field] + fields)[0] == field;
    assert ([field] + fields)[1..] == fields;
    forall i | 0 <= i < |fields| ensures PlainField(fields[i]) {
      assert fields[i] == ([field] + fields)[i + 1];
    }
  }

  /** Running two field lists one after the other is running their
      concatenation. */
  lemma {:induction false} FilterDatumAppend(fs: seq<string>, gs: seq<string>, redaction: string, message: string, separator: string)
    requires LiteralArgs(fs + gs, redaction, separator)
    ensures LiteralArgs(fs, redaction, separator) && LiteralArgs(gs, redaction, separator)
    ensures FilterDatum(fs + gs, redaction, message, separator)
            == FilterDatum(gs, redaction, FilterDatum(fs, redaction, message, separator), separator)
    decreases |fs|
  {
    forall i | 0 <= i < |fs| ensures PlainField(fs[i]) {
      assert fs[i] == (fs + gs)[i];
    }
    forall i | 0 <= i < |gs| ensures PlainField(gs[i]) {
      assert gs[i] == (fs + gs)[|fs| + i];
    }
    if |fs| == 0 {
      assert fs + gs == gs;
    } else {
      var once := SubOne(fs[0], redaction, message, separator);
      assert (fs + gs)[1..] == fs[1..] + gs;
      FilterDatumAppend(fs[1..], gs, redaction, once, separator);
    }
  }

  /** Fields whose keys occur nowhere are ignored: the routine returns the
      message unchanged and raises nothing. */
  lemma {:induction false} FilterDatumAbsent(fields: seq<string>, redaction: string, message: string, separator: string)
    requires LiteralArgs(fields, redaction, separator)
    requires forall i :: 0 <= i < |fields| ==> !Occurs(message, Key(fields[i]))
    ensures FilterDatum(fields, redaction, message, separator) == message
    decreases |fields|
  {
    if |fields| > 0 {
      SubOneAbsent(fields[0], redaction, message, separator);
      FilterDatumAbsent(fields[1..], redaction, message, separator);
    }
  }

  /** `h` shields the text after it from `field`: it holds no `=`, and its
      last character does not appear in the field name, so no key can
      start inside it. */
  predicate Shields(h: string, field: string) {
    '=' !in h && (|h| == 0 || h[|h| - 1] !in field)
  }

  /** No match of the key starts inside a shielding prefix. */
  lemma ShieldedNoMatch(h: string, m: string, field: string, j: nat)
    requires Shields(h, field)
    requires j < |h|
    ensures !MatchAt(h + m, j, Key(field))
  {
    var key := Key(field);
    var s := h + m;
    if j + |key| <= |s| {
      if j + |key| - 1 < |h| {
        // the key's closing `=` would fall inside `h`
        assert s[j..j + |key|][|key| - 1] == s[j + |key| - 1] == h[j + |key| - 1];
      } else {
        // the key would cover the last character of `h` before its `=`
        assert s[j..j + |key|][|h| - 1 - j] == s[|h| - 1] == h[|h| - 1];
        assert key[|h| - 1 - j] == field[|h| - 1 - j];
      }
    }
  }

  /** A shielding prefix passes through the whole routine unchanged. */
  lemma {:induction false} FilterDatumShielded(fields: seq<string>, redaction: string, h: string, m: string, separator: string)
    requires LiteralArgs(fields, redaction, separator)
    requires forall i :: 0 <= i < |fields| ==> Shields(h, fields[i])
    ensures FilterDatum(fields, redaction, h + m, separator) == h + FilterDatum(fields, redaction, m, separator)
    decreases |fields|
  {
    if |fields| > 0 {
      forall j | 0 <= j < |h| ensures !MatchAt(h + m, j, Key(fields[0])) {
        ShieldedNoMatch(h, m, fields[0], j);
      }
      SubOneInertPrefix(fields[0], redaction, h, m, separator);
      var once := SubOne(fields[0], redaction, m, separator);
      FilterDatumShielded(fields[1..], redaction, h, once, separator);
    }
  }

  // ---------------------------------------------------------------------
  // Worked examples.

  /** The value may run to the end of the message: no trailing separator
      is needed. */
  lemma PasswordExample()
    ensures FilterDatum(["password"], "***", "password=abc", ";") == "password=***"
  {
    assert LiteralPass("password", "***", ";");
    FilterDatumSingle("password", "***", "password=abc", ";");
    PasswordPass();
  }

  lemma PasswordPass()
    ensures LiteralPass("password", "***", ";")
    ensures SubOne("password", "***", "password=abc", ";") == "password=***"
  {
    assert LiteralPass("password", "***", ";");
    assert Key("password") + "abc" + "" == "password=abc";
    SubOneBoundary("password", "***", "abc", "", ";");
    assert Replacement("password", "***") + [] == "password=***";
  }

  /** Matching is unanchored: a key preceded by other text, such as
      `name=` inside `username=`, is still found and its value replaced. */
  lemma SubOneUnanchored(field: string, redaction: string, h: string, value: string, rest: string, separator: string)
    requires LiteralPass(field, redaction, separator)
    requires Shields(h, field)
    requires NoSeparator(value, separator)
    requires |rest| == 0 || rest[0] in separator
    ensures SubOne(field, redaction, h + Key(field) + value + rest, separator)
            == h + Replacement(field, redaction) + SubOne(field, redaction, rest, separator)
  {
    var tail := Key(field) + value + rest;
    var r := SubOne(field, redaction, rest, separator);
    assert h + Key(field) + value + rest == h + tail;
    assert SubOne(field, redaction, h + tail, separator) == h + SubOne(field, redaction, tail, separator) by {
      forall j | 0 <= j < |h| ensures !MatchAt(h + tail, j, Key(field)) {
        ShieldedNoMatch(h, tail, field, j);
      }
      SubOneInertPrefix(field, redaction, h, tail, separator);
    }
    assert SubOne(field, redaction, tail, separator) == Replacement(field, redaction) + r by {
      SubOneBoundary(field, redaction, value, rest, separator);
    }
    AppendAssoc(h, Replacement(field, redaction), r);
  }

  /** A one-field list is a single pass. */
  lemma FilterDatumSingle(field: string, redaction: string, message: string, separator: string)
    requires LiteralPass(field, redaction, separator)
    ensures LiteralArgs([field], redaction, separator)
    ensures FilterDatum([field], redaction, message, separator) == SubOne(field, redaction, message, separator)
  {
    assert [field][1..] == [];
  }

  /** The field `name` redacts the value of `username=`. */
  lemma UsernameExample()
    ensures FilterDatum(["name"], "***", "username=bob;", ";") == "username=***;"
  {
    assert LiteralPass("name", "***", ";");
    FilterDatumSingle("name", "***", "username=bob;", ";");
    UsernamePass();
  }

  lemma UsernamePass()
    ensures LiteralPass("name", "***", ";")
    ensures SubOne("name", "***", "username=bob;", ";") == "username=***;"
  {
    assert LiteralPass("name", "***", ";");
    var m := "user" + Key("name") + "bob" + ";";
    assert m == "username=bob;";
    assert SubOne("name", "***", ";", ";") == ";" by {
      SubOneAbsent("name", "***", ";", ";");
    }
    assert SubOne("name", "***", m, ";") == "user" + Replacement("name", "***") + ";" by {
      SubOneUnanchored("name", "***", "user", "bob", ";", ";");
    }
    assert "user" + Replacement("name", "***") + ";" == "username=***;";
  }

  // ---------------------------------------------------------------------
  // Idempotence of the whole routine.

  /** One pass's inputs, with field and redaction free of `=` and of
      separator characters and `=` not a separator: then no pass can
      build a key out of another pass's output. */
  predicate CleanPass(field: string, redaction: string, separator: string) {
    && LiteralPass(field, redaction, separator)
    && Clean(field, separator) && Clean(redaction, separator) && '=' !in separator
  }

  /** Empty, or starting with a separator character: where a value ends. */
  predicate AtBoundary(s: string, separator: string) {
    |s| == 0 || s[0] in separator
  }

  /** `rest` starts with the redaction, and a separator character or the
      end of the text follows it. */
  predicate Written(rest: string, redaction: string, separator: string) {
    redaction <= rest && AtBoundary(rest[|redaction|..], separator)
  }

  /** Every occurrence of the field's key in `s` is followed by a written
      redaction: the shape a pass of that field leaves behind. */
  predicate Settled(field: string, redaction: string, separator: string, s: string) {
    forall i :: 0 <= i <= |s| && MatchAt(s, i, Key(field)) ==> Written(s[i + |Key(field)|..], redaction, separator)
  }

  /** Every field of the list is settled in `s`. */
  predicate SettledAll(fields: seq<string>, redaction: string, separator: string, s: string) {
    forall j :: 0 <= j < |fields| ==> Settled(fields[j], redaction, separator, s)
  }

  /** Index of the first `=` in `s`, or `|s|` when there is none. */
  function EqualsIndex(s: string): (n: nat)
    ensures n <= |s|
    ensures forall k :: 0 <= k < n ==> s[k] != '='
    ensures n == |s| || s[n] == '='
  {
    if |s| == 0 || s[0] == '=' then 0 else 1 + EqualsIndex(s[1..])
  }

  /** A key occurrence spells the field and then `=`. */
  lemma MatchHasEquals(s: string, j: nat, field: string)
    ensures MatchAt(s, j, Key(field)) ==>
              && j + |field| < |s| && s[j + |field|] == '='
              && forall k :: j <= k < j + |field| ==> s[k] == field[k - j]
  {
    if MatchAt(s, j, Key(field)) {
      var key := Key(field);
      assert s[j..][..|key|] == key;
      forall k | j <= k <= j + |field| ensures s[k] == key[k - j] {
        assert s[k] == s[j..][..|key|][k - j];
      }
    }
  }

  /** In `owner=` + clean redaction + a boundary, the key of a clean field
      can only end at the `=` of `owner`'s key, so that field is a suffix
      of `owner`. */
  lemma KeyInEntry(owner: string, other: string, redaction: string, x: string, separator: string, j: nat)
    requires Clean(owner, separator) && Clean(other, separator) && Clean(redaction, separator)
    requires '=' !in separator && AtBoundary(x, separator)
    ensures j < |Key(owner)| + |redaction| && MatchAt(Key(owner) + redaction + x, j, Key(other)) ==>
              && j + |other| == |owner|
              && owner[|owner| - |other|..] == other
  {
    var s := Key(owner) + redaction + x;
    var p := |Key(owner)| + |redaction|;
    if j < p && MatchAt(s, j, Key(other)) {
      assert forall k :: 0 <= k < |owner| ==> s[k] == owner[k];
      assert forall k :: |owner| < k < p ==> s[k] == redaction[k - |owner| - 1];
      assert p < |s| ==> s[p] == x[0];
      MatchHasEquals(s, j, other);
      assert j + |other| == |owner|;
      forall k | 0 <= k < |other| ensures owner[|owner| - |other|..][k] == other[k] {
        assert s[j + k] == owner[j + k];
      }
    }
  }

  /** A suffix of settled text is settled. */
  lemma SettledSuffix(field: string, redaction: string, separator: string, s: string, n: nat)
    requires n <= |s| && Settled(field, redaction, separator, s)
    ensures Settled(field, redaction, separator, s[n..])
  {
    var key := Key(field);
    forall i | 0 <= i <= |s[n..]| && MatchAt(s[n..], i, key)
      ensures Written(s[n..][i + |key|..], redaction, separator)
    {
      assert s == s[..n] + s[n..];
      MatchAfter(s[..n], s[n..], i, key);
      assert s[n..][i + |key|..] == s[n + i + |key|..];
    }
  }

  /** Settled text stays settled behind a prefix whose own key
      occurrences are followed by a written redaction. */
  lemma SettledPrefix(field: string, redaction: string, separator: string, p: string, x: string)
    requires Settled(field, redaction, separator, x)
    requires forall i :: 0 <= i < |p| && MatchAt(p + x, i, Key(field)) ==>
               Written((p + x)[i + |Key(field)|..], redaction, separator)
    ensures Settled(field, redaction, separator, p + x)
  {
    var key := Key(field);
    forall i | |p| <= i <= |p + x| && MatchAt(p + x, i, key)
      ensures Written((p + x)[i + |key|..], redaction, separator)
    {
      MatchAfter(p, x, i - |p|, key);
      assert (p + x)[i + |key|..] == x[i - |p| + |key|..];
    }
  }

  /** A key followed by a written redaction splits off. */
  lemma WrittenSplit(s: string, i: nat, key: string, redaction: string, separator: string)
    requires MatchAt(s, i, key) && Written(s[i + |key|..], redaction, separator)
    ensures s[i..] == key + redaction + s[i + |key| + |redaction|..]
    ensures AtBoundary(s[i + |key| + |redaction|..], separator)
  {
    assert s[i..][..|key|] == key;
    assert s[i + |key|..][..|redaction|] == redaction;
    assert s[i + |key|..][|redaction|..] == s[i + |key| + |redaction|..];
    assert s[i..] == s[i..][..|key|] + s[i + |key|..][..|redaction|] + s[i + |key| + |redaction|..];
  }

  /** A pass over text with no `=` changes nothing. */
  lemma SubOneNoEquals(field: string, redaction: string, t: string, separator: string)
    requires LiteralPass(field, redaction, separator)
    requires EqualsIndex(t) == |t|
    ensures SubOne(field, redaction, t, separator) == t
  {
    forall i | 0 <= i <= |t| ensures !MatchAt(t, i, Key(field)) {
      MatchHasEquals(t, i, field);
    }
    SubOneAbsent(field, redaction, t, separator);
  }

  /** A pass keeps the text up to and including its first `=`. */
  lemma {:induction false} SubOneKeepsToEquals(field: string, redaction: string, t: string, separator: string)
    requires LiteralPass(field, redaction, separator) && Clean(field, separator)
    requires EqualsIndex(t) < |t|
    ensures var n := EqualsIndex(t);
            n < |SubOne(field, redaction, t, separator)|
            && SubOne(field, redaction, t, separator)[..n + 1] == t[..n + 1]
    decreases |t|
  {
    var n := EqualsIndex(t);
    var out := SubOne(field, redaction, t, separator);
    var key := Key(field);
    if MatchAt(t, 0, key) {
      assert n == |field| by {
        MatchHasEquals(t, 0, field);
      }
      assert out[..n + 1] == key by {
        SubOneMatch(field, redaction, t, separator);
      }
      assert t[..n + 1] == t[0..][..|key|];
    } else if n > 0 {
      assert EqualsIndex(t[1..]) == n - 1;
      SubOneKeepsToEquals(field, redaction, t[1..], separator);
      var r := SubOne(field, redaction, t[1..], separator);
      assert out[..n + 1] == [t[0]] + r[..n] by {
        SubOneCopy(field, redaction, t, separator);
      }
      assert t[..n + 1] == [t[0]] + t[1..][..n];
    } else {
      SubOneCopy(field, redaction, t, separator);
    }
  }

  /** A pass does not bring a clean field's key to the front: if the
      result starts with it, so did the input. */
  lemma KeyAtHeadOfPass(field: string, other: string, redaction: string, t: string, separator: string)
    requires LiteralPass(field, redaction, separator) && Clean(field, separator) && Clean(other, separator)
    ensures MatchAt(SubOne(field, redaction, t, separator), 0, Key(other)) ==> MatchAt(t, 0, Key(other))
  {
    var out := SubOne(field, redaction, t, separator);
    var n := EqualsIndex(t);
    var key := Key(other);
    if n == |t| {
      SubOneNoEquals(field, redaction, t, separator);
    } else if MatchAt(out, 0, key) {
      SubOneKeepsToEquals(field, redaction, t, separator);
      MatchHasEquals(out, 0, other);
      assert forall k :: 0 <= k <= n ==> out[k] == out[..n + 1][k] == t[k];
      assert n == |other|;
      assert out[0..][..|key|] == key;
      assert t[0..][..|key|] == out[..n + 1];
    }
  }

  /** The first character of a boundary is copied: a key never starts
      with a separator character. */
  lemma AtBoundaryKept(field: string, redaction: string, x: string, separator: string)
    requires CleanPass(field, redaction, separator) && AtBoundary(x, separator)
    ensures AtBoundary(SubOne(field, redaction, x, separator), separator)
  {
    if |x| > 0 {
      assert x[0] in separator;
      MatchHasEquals(x, 0, field);
      SubOneCopy(field, redaction, x, separator);
    }
  }

  /** A pass leaves a key followed by a written redaction as it is, for
      any clean field: either no key of its own starts there, or it
      matches the same text and writes it back. */
  lemma SettledEntryKept(field: string, other: string, redaction: string, rest: string, separator: string)
    requires CleanPass(field, redaction, separator) && Clean(other, separator)
    requires AtBoundary(rest, separator)
    ensures SubOne(field, redaction, Key(other) + redaction + rest, separator)
            == Key(other) + redaction + SubOne(field, redaction, rest, separator)
  {
    var p := Key(other) + redaction;
    if |field| <= |other| && other[|other| - |field|..] == field {
      SuffixEntryKept(field, other, redaction, rest, separator);
    } else {
      forall j | 0 <= j < |p| ensures !MatchAt(p + rest, j, Key(field)) {
        KeyInEntry(other, field, redaction, rest, separator, j);
      }
      SubOneInertPrefix(field, redaction, p, rest, separator);
    }
  }

  /** `SettledEntryKept` when the field is a suffix of the other: its own
      key matches inside the other's and rewrites the same redaction. */
  lemma SuffixEntryKept(field: string, other: string, redaction: string, rest: string, separator: string)
    requires CleanPass(field, redaction, separator) && Clean(other, separator)
    requires AtBoundary(rest, separator)
    requires |field| <= |other| && other[|other| - |field|..] == field
    ensures SubOne(field, redaction, Key(other) + redaction + rest, separator)
            == Key(other) + redaction + SubOne(field, redaction, rest, separator)
  {
    var p := Key(other) + redaction;
    var x := SubOne(field, redaction, rest, separator);
    var h := other[..|other| - |field|];
    var m := Key(field) + redaction + rest;
    SuffixSplit(field, other, redaction, rest, x);
    forall j | 0 <= j < |h| ensures !MatchAt(h + m, j, Key(field)) {
      KeyInEntry(other, field, redaction, rest, separator, j);
    }
    SubOneInertPrefix(field, redaction, h, m, separator);
    SubOneBoundary(field, redaction, redaction, rest, separator);
  }

  /** Splitting an entry whose name ends in `field` at the start of that
      field's key, before and after the pass. */
  lemma SuffixSplit(field: string, other: string, redaction: string, rest: string, x: string)
    requires |field| <= |other| && other[|other| - |field|..] == field
    ensures var h := other[..|other| - |field|];
            && Key(other) + redaction + rest == h + (Key(field) + redaction + rest)
            && h + (Replacement(field, redaction) + x) == Key(other) + redaction + x
  {
    var h := other[..|other| - |field|];
    assert other == h + field;
  }

  /** A replacement followed by a boundary keeps any clean field settled:
      a key inside it ends at the replacement's own `=`, and the
      redaction follows. */
  lemma SettledAfterReplacement(field: string, other: string, redaction: string, x: string, separator: string)
    requires Clean(field, separator) && Clean(other, separator) && Clean(redaction, separator)
    requires '=' !in separator && AtBoundary(x, separator)
    requires Settled(other, redaction, separator, x)
    ensures Settled(other, redaction, separator, Key(field) + redaction + x)
  {
    var p := Key(field) + redaction;
    forall i | 0 <= i < |p| && MatchAt(p + x, i, Key(other))
      ensures Written((p + x)[i + |Key(other)|..], redaction, separator)
    {
      KeyInEntry(field, other, redaction, x, separator, i);
      assert (p + x)[i + |Key(other)|..] == redaction + x;
      assert (redaction + x)[|redaction|..] == x;
    }
    SettledPrefix(other, redaction, separator, p, x);
  }

  /** A pass settles its own field and keeps every other clean field
      settled. */
  lemma {:induction false} SubOneSettles(field: string, other: string, redaction: string, t: string, separator: string)
    requires CleanPass(field, redaction, separator) && Clean(other, separator)
    requires other == field || Settled(other, redaction, separator, t)
    ensures Settled(other, redaction, separator, SubOne(field, redaction, t, separator))
    decreases |t|
  {
    if |t| > 0 {
      if MatchAt(t, 0, Key(field)) {
        var tail := t[|Key(field)|..];
        var v := ValueLen(tail, separator);
        assert tail[v..] == t[|Key(field)| + v..];
        if other != field {
          SettledSuffix(other, redaction, separator, t, |Key(field)| + v);
        }
        SubOneSettles(field, other, redaction, tail[v..], separator);
        SettlesAtMatch(field, other, redaction, t, separator);
      } else {
        if other != field {
          SettledSuffix(other, redaction, separator, t, 1);
        }
        SubOneSettles(field, other, redaction, t[1..], separator);
        SettlesAtCopy(field, other, redaction, t, separator);
      }
    }
  }

  /** The step of `SubOneSettles` at a match: the replacement is followed
      by the settled rest of the pass, which starts at a boundary. */
  lemma SettlesAtMatch(field: string, other: string, redaction: string, t: string, separator: string)
    requires CleanPass(field, redaction, separator) && Clean(other, separator)
    requires MatchAt(t, 0, Key(field))
    requires var tail := t[|Key(field)|..];
             Settled(other, redaction, separator, SubOne(field, redaction, tail[ValueLen(tail, separator)..], separator))
    ensures Settled(other, redaction, separator, SubOne(field, redaction, t, separator))
  {
    var tail := t[|Key(field)|..];
    var rest := tail[ValueLen(tail, separator)..];
    var x := SubOne(field, redaction, rest, separator);
    AtBoundaryKept(field, redaction, rest, separator);
    SubOneMatch(field, redaction, t, separator);
    SettledAfterReplacement(field, other, redaction, x, separator);
  }

  /** The step of `SubOneSettles` where a character is copied: a key at
      the front of the result was already at the front of the input,
      where it was followed by a written redaction that the pass keeps. */
  lemma SettlesAtCopy(field: string, other: string, redaction: string, t: string, separator: string)
    requires CleanPass(field, redaction, separator) && Clean(other, separator)
    requires |t| > 0 && !MatchAt(t, 0, Key(field))
    requires other == field || Settled(other, redaction, separator, t)
    requires Settled(other, redaction, separator, SubOne(field, redaction, t[1..], separator))
    ensures Settled(other, redaction, separator, SubOne(field, redaction, t, separator))
  {
    var x := SubOne(field, redaction, t[1..], separator);
    SubOneCopy(field, redaction, t, separator);
    KeyAtHeadOfPass(field, other, redaction, t, separator);
    if other != field && MatchAt(t, 0, Key(other)) {
      EntryWrittenAfterPass(field, other, redaction, t, separator);
    }
    SettledPrefix(other, redaction, separator, [t[0]], x);
  }

  /** A key of another field at the front, followed by a written
      redaction, is still followed by one after the pass. */
  lemma EntryWrittenAfterPass(field: string, other: string, redaction: string, t: string, separator: string)
    requires CleanPass(field, redaction, separator) && Clean(other, separator)
    requires MatchAt(t, 0, Key(other)) && Written(t[|Key(other)|..], redaction, separator)
    ensures var out := SubOne(field, redaction, t, separator);
            |Key(other)| <= |out| && Written(out[|Key(other)|..], redaction, separator)
  {
    var key := Key(other);
    var rest := t[|key| + |redaction|..];
    var y := SubOne(field, redaction, rest, separator);
    assert t == key + redaction + rest by {
      WrittenSplit(t, 0, key, redaction, separator);
      assert t[0..] == t;
    }
    SettledEntryKept(field, other, redaction, rest, separator);
    AtBoundaryKept(field, redaction, rest, separator);
    assert SubOne(field, redaction, t, separator)[|key|..] == redaction + y;
    assert (redaction + y)[|redaction|..] == y;
  }

  /** A pass over text its field has settled changes nothing. */
  lemma {:induction false} SettledFixed(field: string, redaction: string, t: string, separator: string)
    requires CleanPass(field, redaction, separator) && Settled(field, redaction, separator, t)
    ensures SubOne(field, redaction, t, separator) == t
    decreases |t|
  {
    if |t| > 0 {
      var key := Key(field);
      if MatchAt(t, 0, key) {
        var rest := t[|key| + |redaction|..];
        WrittenSplit(t, 0, key, redaction, separator);
        assert t == key + redaction + rest;
        SubOneBoundary(field, redaction, redaction, rest, separator);
        SettledSuffix(field, redaction, separator, t, |key| + |redaction|);
        SettledFixed(field, redaction, rest, separator);
      } else {
        SubOneCopy(field, redaction, t, separator);
        SettledSuffix(field, redaction, separator, t, 1);
        SettledFixed(field, redaction, t[1..], separator);
        assert t == [t[0]] + t[1..];
      }
    }
  }

  /** After the routine, the fields already settled and every field of
      the list are settled. */
  lemma {:induction false} FilterDatumSettles(fields: seq<string>, settled: seq<string>, redaction: string, m: string, separator: string)
    requires LiteralArgs(fields, redaction, separator)
    requires forall j :: 0 <= j < |fields| ==> Clean(fields[j], separator)
    requires forall j :: 0 <= j < |settled| ==> Clean(settled[j], separator)
    requires Clean(redaction, separator) && '=' !in separator
    requires SettledAll(settled, redaction, separator, m)
    ensures SettledAll(settled + fields, redaction, separator, FilterDatum(fields, redaction, m, separator))
    decreases |fields|
  {
    if |fields| == 0 {
      assert settled + fields == settled;
    } else {
      var f := fields[0];
      var once := SubOne(f, redaction, m, separator);
      var more := settled + [f];
      forall j | 0 <= j < |more| ensures Settled(more[j], redaction, separator, once) {
        SubOneSettles(f, more[j], redaction, m, separator);
      }
      FilterDatumSettles(fields[1..], more, redaction, once, separator);
      assert more + fields[1..] == settled + fields;
    }
  }

  /** The routine over text every field of the list has settled changes
      nothing. */
  lemma {:induction false} FilterDatumFixed(fields: seq<string>, redaction: string, t: string, separator: string)
    requires LiteralArgs(fields, redaction, separator)
    requires forall j :: 0 <= j < |fields| ==> Clean(fields[j], separator)
    requires Clean(redaction, separator) && '=' !in separator
    requires SettledAll(fields, redaction, separator, t)
    ensures FilterDatum(fields, redaction, t, separator) == t
    decreases |fields|
  {
    if |fields| > 0 {
      SettledFixed(fields[0], redaction, t, separator);
      FilterDatumFixed(fields[1..], redaction, t, separator);
    }
  }

  /** `filter_datum` is idempotent on every message when fields and
      redaction hold neither `=` nor a separator character and `=` is
      not a separator: running it on its own output changes nothing. */
  lemma FilterDatumIdempotent(fields: seq<string>, redaction: string, message: string, separator: string)
    requires LiteralArgs(fields, redaction, separator)
    requires forall j :: 0 <= j < |fields| ==> Clean(fields[j], separator)
    requires Clean(redaction, separator) && '=' !in separator
    ensures var once := FilterDatum(fields, redaction, message, separator);
            FilterDatum(fields, redaction, once, separator) == once
  {
    var once := FilterDatum(fields, redaction, message, separator);
    FilterDatumSettles(fields, [], redaction, message, separator);
    assert [] + fields == fields;
    FilterDatumFixed(fields, redaction, once, separator);
  }
}

=== FILE: scenarios.dfy ===
/** Concrete inputs worked through the model: a message with a field the
    list does not name, and the logger scenario with concrete values. */
module Scenarios {
  import opened Redactor
  import Records
  import Formatter

  /** A field list naming two of a message's three entries. */
  const NAME_EMAIL: seq<string> := ["name", "email"]

  /** `name=<n>;email=<e>;phone=<p>;` rendered from its entries. */
  lemma ThreeRender(n: string, e: string, p: string)
    ensures Records.Render([Records.Entry("name", n), Records.Entry("email", e), Records.Entry("phone", p)], ';')
            == "name=" + n + ";email=" + e + ";phone=" + p + ";"
  {
    var es := [Records.Entry("name", n), Records.Entry("email", e), Records.Entry("phone", p)];
    Records.RenderFirst(es, ';');
    Records.RenderExtend(es, 1, "name=" + n, ";email=", ';');
    Records.RenderExtend(es, 2, "name=" + n + ";email=" + e, ";phone=", ';');
    assert es[..3] == es;
  }

  /** Fields selecting `name` and `email` but not `phone` redact the first
      two entries of such a message and leave the third alone. */
  lemma ThreeFilter(fields: seq<string>, redaction: string, n: string, e: string, p: string)
    requires LiteralArgs(fields, redaction, ";")
    requires forall j :: 0 <= j < |fields| ==> Clean(fields[j], ";")
    requires Clean(redaction, ";")
    requires Clean(n, ";") && Clean(e, ";") && Clean(p, ";")
    requires Records.SelectedBy(fields, "name") && Records.SelectedBy(fields, "email")
    requires !Records.SelectedBy(fields, "phone")
    ensures FilterDatum(fields, redaction,
              Records.Render([Records.Entry("name", n), Records.Entry("email", e), Records.Entry("phone", p)], ';'), ";")
            == Records.Render([Records.Entry("name", redaction), Records.Entry("email", redaction), Records.Entry("phone", p)], ';')
  {
    var es := [Records.Entry("name", n), Records.Entry("email", e), Records.Entry("phone", p)];
    var want := [Records.Entry("name", redaction), Records.Entry("email", redaction), Records.Entry("phone", p)];
    ThreeWellFormed(n, e, p);
    Records.WellFormedParsable(fields, es, ";");
    Records.FilterDatumRender(fields, redaction, es, ';', ";");
    var r := Records.RedactAll(fields, redaction, es);
    assert |r| == |want|;
    forall i | 0 <= i < 3 ensures r[i] == want[i] {
      ThreeRedacted(fields, redaction, n, e, p, i);
    }
    assert r == want;
  }

  /** One entry of `ThreeFilter`. */
  lemma ThreeRedacted(fields: seq<string>, redaction: string, n: string, e: string, p: string, i: nat)
    requires i < 3
    requires Records.SelectedBy(fields, "name") && Records.SelectedBy(fields, "email")
    requires !Records.SelectedBy(fields, "phone")
    ensures var es := [Records.Entry("name", n), Records.Entry("email", e), Records.Entry("phone", p)];
            var want := [Records.Entry("name", redaction), Records.Entry("email", redaction), Records.Entry("phone", p)];
            Records.RedactAll(fields, redaction, es)[i] == want[i]
  {
  }

  /** The three entries of such a message are well formed. */
  lemma ThreeWellFormed(n: string, e: string, p: string)
    requires Clean(n, ";") && Clean(e, ";") && Clean(p, ";")
    ensures Records.WellFormed([Records.Entry("name", n), Records.Entry("email", e), Records.Entry("phone", p)], ";")
  {
    var names := ["name", "email", "phone"];
    forall i | 0 <= i < |names| ensures Clean(names[i], ";") {
      var m := names[i];
      forall k | 0 <= k < |m| ensures m[k] != '=' && m[k] !in ";" {
      }
    }
  }

  /** Whatever the three values, `name` and `email` are redacted and the
      `phone` entry passes through. */
  lemma NameEmailPhone(n: string, e: string, p: string)
    requires Clean(n, ";") && Clean(e, ";") && Clean(p, ";")
    ensures LiteralArgs(NAME_EMAIL, "***", ";")
    ensures FilterDatum(NAME_EMAIL, "***", "name=" + n + ";email=" + e + ";phone=" + p + ";", ";")
            == "name=***;email=***;phone=" + p + ";"
  {
    NameEmailFacts();
    ThreeRender(n, e, p);
    ThreeFilter(NAME_EMAIL, "***", n, e, p);
    RedactedThreeRender(p);
  }

  /** The message with both values redacted. */
  lemma RedactedThreeRender(p: string)
    ensures Records.Render([Records.Entry("name", "***"), Records.Entry("email", "***"), Records.Entry("phone", p)], ';')
            == "name=***;email=***;phone=" + p + ";"
  {
    ThreeRender("***", "***", p);
  }

  /** What the field list `["name", "email"]` and the redaction `***`
      satisfy. */
  lemma NameEmailFacts()
    ensures LiteralArgs(NAME_EMAIL, "***", ";")
    ensures forall j :: 0 <= j < |NAME_EMAIL| ==> Clean(NAME_EMAIL[j], ";")
    ensures Clean("***", ";")
    ensures Records.SelectedBy(NAME_EMAIL, "name") && Records.SelectedBy(NAME_EMAIL, "email")
    ensures !Records.SelectedBy(NAME_EMAIL, "phone")
  {
    NameEmailPlain();
    NameEmailSelection();
  }

  /** The two fields and the redaction are plain and clean. */
  lemma NameEmailPlain()
    ensures LiteralArgs(NAME_EMAIL, "***", ";")
    ensures forall j :: 0 <= j < |NAME_EMAIL| ==> Clean(NAME_EMAIL[j], ";")
    ensures Clean("***", ";")
  {
    forall j | 0 <= j < |NAME_EMAIL|
      ensures PlainField(NAME_EMAIL[j]) && Clean(NAME_EMAIL[j], ";")
    {
      var f := NAME_EMAIL[j];
      forall k | 0 <= k < |f| ensures f[k] !in RegexSpecial && f[k] != '=' && f[k] !in ";" {
      }
    }
  }

  /** `name` and `email` are selected, `phone` is not. */
  lemma NameEmailSelection()
    ensures Records.SelectedBy(NAME_EMAIL, "name") && Records.SelectedBy(NAME_EMAIL, "email")
    ensures !Records.SelectedBy(NAME_EMAIL, "phone")
  {
    assert Records.Selects(NAME_EMAIL[0], "name");
    assert Records.Selects(NAME_EMAIL[1], "email");
    forall j | 0 <= j < |NAME_EMAIL| ensures !Records.Selects(NAME_EMAIL[j], "phone") {
    }
  }

  /** `name=John;email=john@x.com;phone=555;` under `["name", "email"]`. */
  lemma NameEmailExample()
    ensures LiteralArgs(NAME_EMAIL, "***", ";")
    ensures FilterDatum(NAME_EMAIL, "***", "name=John;email=john@x.com;phone=555;", ";")
            == "name=***;email=***;phone=555;"
  {
    var n, e, p := "John", "john@x.com", "555";
    ExampleValuesClean(n, e, p);
    NameEmailPhone(n, e, p);
    ExampleText(n, e, p);
  }

  /** The example's message and its redaction, assembled from their parts. */
  lemma ExampleText(n: string, e: string, p: string)
    requires n == "John" && e == "john@x.com" && p == "555"
    ensures "name=" + n + ";email=" + e + ";phone=" + p + ";" == "name=John;email=john@x.com;phone=555;"
    ensures "name=***;email=***;phone=" + p + ";" == "name=***;email=***;phone=555;"
  {
    var a := "name=" + n + ";email=";
    assert a == "name=John;email=";
    var b := a + e + ";phone=";
    assert b == "name=John;email=john@x.com;phone=";
    assert b + p + ";" == "name=John;email=john@x.com;phone=555;";
  }

  /** The example's values hold no `=` or `;`. */
  lemma ExampleValuesClean(n: string, e: string, p: string)
    requires n == "John" && e == "john@x.com" && p == "555"
    ensures Clean(n, ";") && Clean(e, ";") && Clean(p, ";")
  {
    var vs := [n, e, p];
    forall i | 0 <= i < |vs| ensures Clean(vs[i], ";") {
      var v := vs[i];
      forall k | 0 <= k < |v| ensures v[k] != '=' && v[k] !in ";" {
      }
    }
    assert vs[0] == n && vs[1] == e && vs[2] == p;
  }

  /** The logger scenario with concrete values: a `user_data` record at
      level `INFO` whose message is `ssn=123-45-6789;name=Jane;`. */
  lemma JaneScenario(asctime: string)
    requires '=' !in asctime
    ensures LiteralArgs(Formatter.PII_FIELDS, Formatter.REDACTION, Formatter.SEPARATOR)
    ensures var rec := Formatter.LogRecord("user_data", "INFO", asctime, "ssn=123-45-6789;name=Jane;");
            var line := Formatter.Format(Formatter.RedactingFormatter(Formatter.PII_FIELDS), rec);
            && line == Formatter.Header(rec) + "ssn=***;name=***;"
            && Occurs(line, "user_data") && Occurs(line, "INFO")
            && Occurs(line, "ssn=***") && Occurs(line, "name=***")
  {
    var ssn, name := "123-45-6789", "Jane";
    JaneValues(ssn, name);
    Formatter.FormatScenario(asctime, ssn, name);
  }

  /** The scenario's values are clean, and its message is assembled from
      them. */
  lemma JaneValues(ssn: string, name: string)
    requires ssn == "123-45-6789" && name == "Jane"
    ensures Clean(ssn, ";") && Clean(name, ";")
    ensures "ssn=" + ssn + ";name=" + name + ";" == "ssn=123-45-6789;name=Jane;"
  {
    var vs := [ssn, name];
    forall i | 0 <= i < |vs| ensures Clean(vs[i], ";") {
      var v := vs[i];
      forall k | 0 <= k < |v| ensures v[k] != '=' && v[k] !in ";" {
      }
    }
    assert vs[0] == ssn && vs[1] == name;
    var a := "ssn=" + ssn + ";name=";
    assert a == "ssn=123-45-6789;name=";
  }

  /** Outside the closed form's hypotheses an entry that no field selects
      can change: the value of `note` holds `=`, and the key `name=` is
      found inside it. */
  lemma NestedKeyExample()
    ensures !Records.SelectedBy(["name"], "note")
    ensures FilterDatum(["name"], "***", "note=name=x;", ";") == "note=name=***;"
  {
    assert !Records.Selects("name", "note") by {
      assert "note"[1] != "name"[1];
    }
    assert ["name"][0] == "name";
    NestedKeyPass();
    FilterDatumSingle("name", "***", "note=name=x;", ";");
  }

  /** The single pass of `NestedKeyExample`. */
  lemma NestedKeyPass()
    ensures LiteralPass("name", "***", ";")
    ensures SubOne("name", "***", "note=name=x;", ";") == "note=name=***;"
  {
    assert LiteralPass("name", "***", ";");
    NoteText();
    NotePrefix("name=x;");
    NameValue();
  }

  /** The two messages of `NestedKeyPass` split after `note=`. */
  lemma NoteText()
    ensures "note=name=x;" == "note=" + "name=x;"
    ensures "note=name=***;" == "note=" + "name=***;"
  {
    var r := "note=" + "name=***;";
    forall k | 0 <= k < |r| ensures r[k] == "note=name=***;"[k] {
    }
  }

  /** The pass for `name` copies a leading `note=`, whatever follows. */
  lemma NotePrefix(tail: string)
    ensures SubOne("name", "***", "note=" + tail, ";") == "note=" + SubOne("name", "***", tail, ";")
  {
    assert LiteralPass("name", "***", ";");
    forall j | 0 <= j < 5 ensures !MatchAt("note=" + tail, j, Key("name")) {
      NoteNoMatch(tail, j);
    }
    SubOneInertPrefix("name", "***", "note=", tail, ";");
  }

  /** The pass for `name` over `name=x;`. */
  lemma NameValue()
    ensures SubOne("name", "***", "name=x;", ";") == "name=***;"
  {
    assert LiteralPass("name", "***", ";");
    assert Key("name") + "x" + ";" == "name=x;";
    SubOneAbsent("name", "***", ";", ";");
    SubOneBoundary("name", "***", "x", ";", ";");
    assert Replacement("name", "***") + ";" == "name=***;";
  }

  /** No key `name=` starts inside a leading `note=`. */
  lemma NoteNoMatch(tail: string, j: nat)
    requires j < 5
    ensures !MatchAt("note=" + tail, j, Key("name"))
  {
    var s := "note=" + tail;
    var key := Key("name");
    assert key == "name=";
    if j == 0 {
      assert s[j..][1] == 'o' != key[1];
    } else {
      assert s[j..][0] == s[j] != key[0];
    }
  }
}

=== FILE: user_rows.dfy ===
/** The message the application logs for each row of the `users` table,
    and what the configured formatter leaves of it.

  The database cursor is not modelled: a row arrives as eight strings,
  each the text that f-string interpolation produces for its column.
*/
module UserRows {
  import opened Redactor
  import Records
  import Formatter

  /** One row of `users`, in column order. */
  datatype UserRow = UserRow(
    name: string, email: string, phone: string, ssn: string, password: string,
    ip: string, lastLogin: string, userAgent: string)

  /** The message logged for a row; the three adjacent f-strings of the
      source are one literal template. */
  function RowMessage(row: UserRow): string {
    "name=" + row.name + "; email=" + row.email + "; phone=" + row.phone
    + "; ssn=" + row.ssn + "; password=" + row.password + "; ip=" + row.ip
    + "; last_login=" + row.lastLogin + "; user_agent=" + row.userAgent + ";"
  }

  /** The entry names of the template, in column order. */
  const ROW_NAMES: seq<string> :=
    ["name", " email", " phone", " ssn", " password", " ip", " last_login", " user_agent"]

  /** The same message read as entries: after the first, every entry name
      starts with the space that follows the previous `;`. */
  function RowEntries(row: UserRow): seq<Records.Entry> {
    var n := ROW_NAMES;
    [ Records.Entry(n[0], row.name), Records.Entry(n[1], row.email),
      Records.Entry(n[2], row.phone), Records.Entry(n[3], row.ssn),
      Records.Entry(n[4], row.password), Records.Entry(n[5], row.ip),
      Records.Entry(n[6], row.lastLogin), Records.Entry(n[7], row.userAgent) ]
  }

  /** The first two entries of the row. */
  lemma RowPrefix2(row: UserRow)
    ensures Records.Render(RowEntries(row)[..2], ';') == "name=" + row.name + "; email=" + row.email + ";"
  {
    var es := RowEntries(row);
    var p := "name=" + row.name;
    Records.RenderFirst(es, ';');
    Records.RenderExtend(es, 1, p, "; email=", ';');
  }

  /** The first four entries of the row. */
  lemma RowPrefix4(row: UserRow)
    ensures Records.Render(RowEntries(row)[..4], ';')
            == "name=" + row.name + "; email=" + row.email + "; phone=" + row.phone
               + "; ssn=" + row.ssn + ";"
  {
    var es := RowEntries(row);
    var p := "name=" + row.name + "; email=" + row.email;
    RowPrefix2(row);
    Records.RenderExtend(es, 2, p, "; phone=", ';');
    Records.RenderExtend(es, 3, p + "; phone=" + row.phone, "; ssn=", ';');
  }

  /** The first six entries of the row. */
  lemma RowPrefix6(row: UserRow)
    ensures Records.Render(RowEntries(row)[..6], ';')
            == "name=" + row.name + "; email=" + row.email + "; phone=" + row.phone
               + "; ssn=" + row.ssn + "; password=" + row.password + "; ip=" + row.ip + ";"
  {
    var es := RowEntries(row);
    var p := "name=" + row.name + "; email=" + row.email + "; phone=" + row.phone + "; ssn=" + row.ssn;
    RowPrefix4(row);
    Records.RenderExtend(es, 4, p, "; password=", ';');
    Records.RenderExtend(es, 5, p + "; password=" + row.password, "; ip=", ';');
  }

  /** The logged message is the row's entries rendered with `;`. */
  lemma RowMessageEntries(row: UserRow)
    ensures RowMessage(row) == Records.Render(RowEntries(row), ';')
  {
    var es := RowEntries(row);
    var p := "name=" + row.name + "; email=" + row.email + "; phone=" + row.phone
             + "; ssn=" + row.ssn + "; password=" + row.password + "; ip=" + row.ip;
    RowPrefix6(row);
    Records.RenderExtend(es, 6, p, "; last_login=", ';');
    Records.RenderExtend(es, 7, p + "; last_login=" + row.lastLogin, "; user_agent=", ';');
    assert es[..8] == es;
  }

  /** The row with its five personal columns replaced by `redaction`. */
  function RedactRow(row: UserRow, redaction: string): UserRow {
    row.(name := redaction, email := redaction, phone := redaction, ssn := redaction, password := redaction)
  }

  /** No column value holds `=`, and no personal column holds `;` (the
      pattern's value would end there). `ip`, `last_login` and
      `user_agent` may hold `;`. */
  predicate CleanRow(row: UserRow) {
    var sep := Formatter.SEPARATOR;
    && Clean(row.name, sep) && Clean(row.email, sep) && Clean(row.phone, sep)
    && Clean(row.ssn, sep) && Clean(row.password, sep) && Records.NoEquals(row.ip)
    && Records.NoEquals(row.lastLogin) && Records.NoEquals(row.userAgent)
  }

  /** The entry names of the template hold no `=` or `;`. */
  lemma NamesClean()
    ensures forall i :: 0 <= i < |ROW_NAMES| ==> Clean(ROW_NAMES[i], Formatter.SEPARATOR)
  {
    forall i | 0 <= i < |ROW_NAMES| ensures Clean(ROW_NAMES[i], Formatter.SEPARATOR) {
      var n := ROW_NAMES[i];
      forall k | 0 <= k < |n| ensures n[k] != '=' && n[k] !in Formatter.SEPARATOR {
      }
    }
  }

  /** The entries of a clean row are parsable under fields that leave
      the three readable columns alone. */
  lemma RowEntriesParsable(fields: seq<string>, row: UserRow)
    requires CleanRow(row)
    requires forall i :: 5 <= i < 8 ==> !Records.SelectedBy(fields, RowEntries(row)[i].name)
    ensures Records.Parsable(fields, RowEntries(row), Formatter.SEPARATOR)
  {
    NamesClean();
    var es := RowEntries(row);
    assert forall i :: 0 <= i < |es| ==> es[i].name == ROW_NAMES[i];
    forall i | 0 <= i < 5 ensures Records.NoEquals(es[i].value) {
    }
  }

  /** The application's fields select the five personal columns. */
  lemma PersonalSelected(row: UserRow)
    ensures forall i :: 0 <= i < 5 ==> Records.SelectedBy(Formatter.PII_FIELDS, RowEntries(row)[i].name)
  {
    forall i | 0 <= i < 5 ensures Records.SelectedBy(Formatter.PII_FIELDS, RowEntries(row)[i].name) {
      PersonalColumnSelected(row, i);
    }
  }

  /** The `i`-th field selects the `i`-th column. */
  lemma PersonalColumnSelected(row: UserRow, i: nat)
    requires i < 5
    ensures Records.Selects(Formatter.PII_FIELDS[i], RowEntries(row)[i].name)
  {
    var f := Formatter.PII_FIELDS;
    var es := RowEntries(row);
    if i == 0 {
      assert Records.Selects(f[0], es[0].name);
    } else if i == 1 {
      assert Records.Selects(f[1], es[1].name);
    } else if i == 2 {
      assert Records.Selects(f[2], es[2].name);
    } else if i == 3 {
      assert Records.Selects(f[3], es[3].name);
    } else {
      assert Records.Selects(f[4], es[4].name);
    }
  }

  /** No field of the application selects `ip`, `last_login` or
      `user_agent`. */
  lemma OthersNotSelected(row: UserRow)
    ensures forall i :: 5 <= i < 8 ==> !Records.SelectedBy(Formatter.PII_FIELDS, RowEntries(row)[i].name)
  {
    var f := Formatter.PII_FIELDS;
    var es := RowEntries(row);
    forall i, j | 5 <= i < 8 && 0 <= j < |f| ensures !Records.Selects(f[j], es[i].name) {
    }
  }

  /** Fields that select exactly the five personal columns turn a row's
      entries into those of the redacted row. */
  lemma RowRedactAllBy(fields: seq<string>, redaction: string, row: UserRow)
    requires forall i :: 0 <= i < 5 ==> Records.SelectedBy(fields, RowEntries(row)[i].name)
    requires forall i :: 5 <= i < 8 ==> !Records.SelectedBy(fields, RowEntries(row)[i].name)
    ensures Records.RedactAll(fields, redaction, RowEntries(row)) == RowEntries(RedactRow(row, redaction))
  {
    var r := Records.RedactAll(fields, redaction, RowEntries(row));
    var want := RowEntries(RedactRow(row, redaction));
    assert |r| == |want|;
    forall i | 0 <= i < 8 ensures r[i] == want[i] {
      RowEntryRedacted(fields, redaction, row, i);
    }
  }

  /** One column of `RowRedactAllBy`. */
  lemma RowEntryRedacted(fields: seq<string>, redaction: string, row: UserRow, i: nat)
    requires i < 8
    requires i < 5 ==> Records.SelectedBy(fields, RowEntries(row)[i].name)
    requires 5 <= i ==> !Records.SelectedBy(fields, RowEntries(row)[i].name)
    ensures Records.RedactAll(fields, redaction, RowEntries(row))[i] == RowEntries(RedactRow(row, redaction))[i]
  {
  }

  /** The entries after the application's fields are those of the
      redacted row. */
  lemma RowRedactAll(row: UserRow)
    ensures Records.RedactAll(Formatter.PII_FIELDS, Formatter.REDACTION, RowEntries(row))
            == RowEntries(RedactRow(row, Formatter.REDACTION))
  {
    PersonalSelected(row);
    OthersNotSelected(row);
    RowRedactAllBy(Formatter.PII_FIELDS, Formatter.REDACTION, row);
  }

  /** Under the application's fields a row's message comes out as the
      message of the row with its personal columns redacted: `ip`,
      `last_login` and `user_agent` stay readable. */
  lemma FilterRowMessage(row: UserRow)
    requires CleanRow(row)
    ensures LiteralArgs(Formatter.PII_FIELDS, Formatter.REDACTION, Formatter.SEPARATOR)
    ensures FilterDatum(Formatter.PII_FIELDS, Formatter.REDACTION, RowMessage(row), Formatter.SEPARATOR)
            == RowMessage(RedactRow(row, Formatter.REDACTION))
  {
    Formatter.PiiFieldsClean();
    RowMessageEntries(row);
    RowMessageEntries(RedactRow(row, Formatter.REDACTION));
    OthersNotSelected(row);
    RowEntriesParsable(Formatter.PII_FIELDS, row);
    Records.FilterDatumRender(Formatter.PII_FIELDS, Formatter.REDACTION, RowEntries(row), ';', Formatter.SEPARATOR);
    RowRedactAll(row);
  }

  /** The line the `user_data` logger emits for a row at level `INFO`. */
  lemma LoggedRow(row: UserRow, asctime: string)
    requires CleanRow(row) && '=' !in asctime
    ensures LiteralArgs(Formatter.PII_FIELDS, Formatter.REDACTION, Formatter.SEPARATOR)
    ensures var rec := Formatter.LogRecord("user_data", "INFO", asctime, RowMessage(row));
            Formatter.Format(Formatter.RedactingFormatter(Formatter.PII_FIELDS), rec)
            == Formatter.Header(rec) + RowMessage(RedactRow(row, Formatter.REDACTION))
  {
    Formatter.PiiFieldsClean();
    var rec := Formatter.LogRecord("user_data", "INFO", asctime, RowMessage(row));
    Formatter.FormatRedactsMessageOnly(Formatter.RedactingFormatter(Formatter.PII_FIELDS), rec);
    FilterRowMessage(row);
  }
}
